=== FILE: README.md ===
# HAMS360 inventory backend, modelled in Dafny

HAMS360 is a hospital inventory service. It has three Flask back ends over one MySQL
database (`hospital_inventory`):

- `backend/app.py`: the inventory service. It covers sign-up and login over `userss`, the
  upload rule for resource images, and the create/update/delete handlers for `resources`
  and `assets`. Deleting an asset moves it into `deleted_assets`.
- `backend/App.2.py`: the dashboard. It gives row counts, a per-day stock timeline, the
  five lowest stocks and a feed of the ten most recent stock changes.
- `backend/app3.py`: reporting. It lists resource types, gives a stock report filtered by
  resource name, a date range and an optional asset name (as a preview or as a PDF), and
  searches assets by name.

The model has four modules:

- `Tables` (`tables.dfy`) holds the rows of the four tables as datatypes. It also holds
  the relational operations the handlers run: `WHERE` selection, `fetchone`,
  `UPDATE ... WHERE`, `DELETE ... WHERE`, the asset/resource inner join and
  `ORDER BY ... LIMIT`. Each is proved against its meaning: membership, permutation,
  order, and which rows a limit may drop.
- `Inventory` (`inventory.dfy`) models `app.py`. The database is the class `Store`, whose
  fields are the tables and the two AUTO_INCREMENT counters. Each write handler is a
  method that returns the HTTP status and JSON body, and changes exactly the tables it
  names. Each method keeps the invariant `Valid()`: users are unique by email and by id
  number, ids are keys below their counters, and no asset id is both live and archived.
  The read-only rules (upload check, password check, lookups) are functions.
- `Dashboard` (`dashboard.dfy`) models `App.2.py` as read-only functions. The formatting
  loop of the recent-updates feed is a method with a loop, proved against the function
  describing one entry.
- `Reports` (`reports.dfy`) models `app3.py` as read-only functions.

Dates are day numbers. A password hash is a `Hasher` parameter (salt, password) ↦ digest,
and a user row stores only the salt and the digest. werkzeug's `secure_filename` is a
`Sanitizer` parameter. An uploaded file is represented by its file name: a file part
with an empty name is falsy, as werkzeug's `FileStorage` is.

## Model

| member | source | states |
|---|---|---|
| Tables.Where | backend/app.py:202-203 | the selected rows are exactly the rows satisfying the condition; they form a sub-multiset of the table; no match gives no rows |
| Tables.WhereWhere | backend/app3.py:56-62 | appending `AND c` to a WHERE clause selects the same rows as selecting with `c` from the first selection |
| Tables.WhereCount | backend/app.py:202-203 | WHERE keeps every copy of a matching row and no copy of any other row |
| Tables.WhereSame | backend/app3.py:60-62 | two conditions that agree on every row select the same rows |
| Tables.FetchOne | backend/app.py:150-151 | `fetchone` gives nothing exactly when nothing is selected, and otherwise the first selected row |
| Tables.UpdateWhere | backend/app.py:220-223 | UPDATE ... WHERE replaces exactly the matching rows and keeps every other row, the row count and the order; with no match the table is unchanged |
| Tables.UpdateWhereKeepsKeys | backend/app.py:167-170 | an UPDATE that does not write the id column keeps ids unique and below their counter |
| Tables.DeleteWhere | backend/app.py:269 | DELETE ... WHERE keeps exactly the non-matching rows; kept rows plus selected rows are the old table as a multiset |
| Tables.DeleteWhereKeepsKeys | backend/app.py:191 | deleting rows keeps ids unique |
| Tables.JoinAsset | backend/App.2.py:79-80 | the join rows of one asset are exactly its pairs with resources carrying its `resource_id`, each pair as often as the resource occurs |
| Tables.Join | backend/App.2.py:79-80 | the inner join holds exactly the (asset, resource) pairs with `a.resource_id = r.id`, each as often as the asset occurs times as often as the resource occurs; an asset without a resource gives no row |
| Tables.JoinCountStep | backend/App.2.py:79-80 | the join rows of a first asset plus those of the other assets count every pair by the product of the two occurrence counts |
| Tables.Insert | backend/App.2.py:82 | placing a row into ascending rows keeps them ascending and adds exactly that row |
| Tables.SortBy | backend/App.2.py:82 | ORDER BY ASC yields an ascending permutation of the rows |
| Tables.LimitKeepsSmallest | backend/App.2.py:82-83 | on ascending rows, no row cut off by LIMIT has a smaller key than a kept row |
| Tables.OrderLimit | backend/App.2.py:82-83 | ORDER BY ... LIMIT n keeps exactly min(n, row count) rows, ascending, drawn from the table as a sub-multiset; a row, or any copy of a repeated row, is dropped only when n rows were kept, all with keys not above it |
| Tables.OrderLimitWhere | backend/App.2.py:79-83 | after WHERE p ... ORDER BY ... LIMIT n, a copy of a row satisfying p is missing only when n rows were kept, all with keys not above it |
| Inventory.Lower | backend/app.py:103 | lower-casing keeps the length and maps every character through ASCII lower-case |
| Inventory.Extension | backend/app.py:103 | `rsplit('.', 1)[1]` is absent exactly when there is no dot; otherwise it is the dot-free suffix after the last dot |
| Inventory.AllowedFile | backend/app.py:102-103 | a name is allowed iff it has a dot and the lower-cased text after its last dot is png, jpg, jpeg or gif; a trailing dot is refused |
| Inventory.HasSignupFields | backend/app.py:28-33 | the request passes the field check iff every one of the eight required keys is present, whatever its value |
| Inventory.CheckPassword | backend/app.py:88-89 | a password checks iff hashing it under the stored salt reproduces the stored hash |
| Inventory.SignupConflict | backend/app.py:37-44 | no conflict iff no user has the email or the id number; otherwise "Email" when the first clashing user has that email, else "ID Number", each backed by a witness |
| Inventory.NewUser | backend/app.py:46-64 | the inserted user carries the given email and id number, and stores a salted digest against which the given password checks |
| Inventory.RegisteringKeepsUsersUnique | backend/app.py:37-64 | inserting a user who clashes with nobody keeps emails and id numbers unique |
| Inventory.UserByEmail | backend/app.py:82-83 | the lookup finds nothing iff no user has the email, otherwise a user with that email |
| Inventory.Login | backend/app.py:74-94 | 401 for an unknown or missing username; 500 when a user is found but no password was sent; with unique users, 200 iff a user with that email has a stored hash matching the password |
| Inventory.SignupThenLogin | backend/app.py:25-94 | a user accepted by sign-up can log in with the email and password given |
| Inventory.ResourceById | backend/app.py:150-154 | the lookup finds nothing iff no resource has the id, otherwise a resource with that id |
| Inventory.AssetById | backend/app.py:256-260 | the lookup finds nothing iff no asset has the id, otherwise an asset with that id |
| Inventory.AssetsOf | backend/app.py:198-205 | `get_assets` returns exactly the assets whose `resource_id` is the given one |
| Inventory.AddedResourceIsFetched | backend/app.py:131-138 | a resource inserted under a fresh id is what a later lookup by that id returns |
| Inventory.Revised | backend/app.py:156-170 | the id is kept; an empty or missing name or section keeps the old value; the image path changes only for an uploaded file with an allowed extension, and then becomes its sanitised name |
| Inventory.AssetFormComplete | backend/app.py:237-238 | (the same check as backend/app.py:216-217) the form passes only with all four fields present; an empty name, a zero stock count or a zero deduction is refused as missing; otherwise it passes |
| Inventory.OnlyRowWithId | backend/app.py:256-269 | under unique ids, the row found by id is the only row a delete by that id removes |
| Inventory.RemoveOnlyRow | backend/app.py:256-269 | under unique ids, deleting by the id of a live row shortens the table by one, drops that row and keeps every other row |
| Inventory.InsertKeepsAssetTablesValid | backend/app.py:241-246 | inserting an asset under the counter value and advancing the counter keeps the asset tables valid |
| Inventory.OverwriteKeepsAssetTablesValid | backend/app.py:220-223 | an asset UPDATE that does not write the id keeps the asset tables valid |
| Inventory.ArchiveKeepsAssetTablesValid | backend/app.py:262-270 | copying an asset to `deleted_assets` and deleting it from `assets` keeps the asset tables valid |
| Inventory.ReviseRow | backend/app.py:167-170 | rewriting the row with a revision's id keeps the resource table valid, replaces exactly the rows with that id and leaves the others as they were |
| Inventory.Store.constructor | backend/app.py:18-21 | the database starts with empty tables and satisfies the invariant |
| Inventory.Store.Signup | backend/app.py:25-71 | 400 when a field is missing, 409 with the conflict label, otherwise 201 with exactly the new user appended; user uniqueness is preserved |
| Inventory.Store.AddResource | backend/app.py:115-140 | 400 for a missing field, 400 for a refused file type, otherwise 201 with the row appended under the next id and the counter advanced; nothing changes on refusal |
| Inventory.Store.UpdateResource | backend/app.py:143-174 | 404 and no change for an unknown id; otherwise 200, with the row of that id replaced by its revision and all other rows unchanged |
| Inventory.Store.Rewrite | backend/app.py:167-170 | the UPDATE of `update_resource` sets the revised columns on the row with the id and keeps the store invariant |
| Inventory.Store.DeleteResource | backend/app.py:177-195 | 404 and no change for an unknown id; otherwise 200, with exactly the rows of that id removed |
| Inventory.Store.AddAsset | backend/app.py:229-250 | 400 unless name, stock count, deduction and date are all truthy; otherwise 201 with the asset appended under the next id |
| Inventory.Store.UpdateAsset | backend/app.py:208-226 | 400 for a missing field; otherwise 200, overwriting exactly name, stock count, deduction and date of the row with the id; an unknown id leaves the table unchanged but still reports success |
| Inventory.Store.DeleteAsset | backend/app.py:253-274 | 404 and no change for an unknown id; otherwise 200, the row appended to `deleted_assets` and removed from `assets`, with every other asset kept |
| Inventory.Store.Archive | backend/app.py:262-270 | the INSERT into `deleted_assets` and the DELETE from `assets` move the row with the id and keep the asset tables valid |
| Dashboard.CountRows | backend/App.2.py:18-39 | `COUNT(*)` is the number of rows of the table |
| Dashboard.DayTotal | backend/App.2.py:46-50 | a day's total is the net (`stock_count - deduction`) of exactly the assets dated that day; a day without assets totals 0 |
| Dashboard.InsertDay | backend/App.2.py:50-51 | adding a day to a strictly ascending day list keeps it strictly ascending and adds only that day |
| Dashboard.Days | backend/App.2.py:50-51 | the group keys are each asset date exactly once, strictly ascending |
| Dashboard.PointsOf | backend/App.2.py:46-48 | each chart point carries its day and the summed `stock_count - deduction` of that day |
| Dashboard.Timeline | backend/App.2.py:41-63 | one point per distinct asset date, strictly ascending by day; each point's total is that day's sum; every asset's day has its point |
| Dashboard.HitsNone | backend/App.2.py:46-50 | an asset whose date is not among the days adds nothing to their totals |
| Dashboard.HitsOnce | backend/App.2.py:46-50 | an asset whose date occurs once among the days adds its net exactly once |
| Dashboard.SplitFirstAsset | backend/App.2.py:46-50 | the day totals split into the first asset's contribution plus the rest's |
| Dashboard.NoAssetsNoTotals | backend/App.2.py:46-50 | with no assets every day total is zero |
| Dashboard.DayTotalsAddUp | backend/App.2.py:46-50 | over strictly ascending days covering every asset date, the day totals sum to the net stock of all assets |
| Dashboard.SumTotalsByDay | backend/App.2.py:46-58 | the chart's totals sum to the day totals of its days |
| Dashboard.TimelineAddsUp | backend/App.2.py:41-63 | grouping by day loses nothing: the timeline totals sum to the net stock of all assets |
| Dashboard.LowStockRows | backend/App.2.py:71-84 | min(5, number of low-stock join rows) joined rows with stock below 10, ascending by stock; a low-stock row is dropped only when 5 rows were kept, none above it |
| Dashboard.LowStockCut | backend/App.2.py:71-84 | counting repeated rows too, a copy of a low-stock join row is left out only when 5 rows were kept, none with a larger stock count |
| Dashboard.LowStock | backend/App.2.py:65-103 | one item per low-stock row, in order, each made from that row; hence at most 5 items, each below 10, ascending by stock count, each built from an asset and its resource |
| Dashboard.LowStockItemsFacts | backend/App.2.py:89-97 | items made row by row from the low-stock rows keep the rows' bound, order and origin |
| Dashboard.RecentRows | backend/App.2.py:112-120 | min(10, number of joined rows) joined rows, newest first, as a sub-multiset of the join; a row, or any copy of a repeated row, is dropped only when 10 newer-or-equal rows were kept |
| Dashboard.Describe | backend/App.2.py:124-132 | the entry keeps id and date; "Increased" iff the deduction is negative, else "Decreased"; action and quantity give the deduction back; the item is "resource (asset)" |
| Dashboard.FormatUpdates | backend/App.2.py:122-132 | the loop builds one entry per row, in order, each the description of its row |
| Dashboard.RecentUpdates | backend/App.2.py:105-149 | one entry per recent row, in order, each its description; hence at most 10 entries, newest first, each describing a row of the asset/resource join |
| Reports.ResourceTypes | backend/app3.py:27-35 | the types are the resource names, each once, and every resource's name is among them |
| Reports.DistinctOnce | backend/app3.py:31 | a list without repetitions holds each of its elements exactly once |
| Reports.TypeListedOnce | backend/app3.py:31-33 | every resource name occurs exactly once in the resource types |
| Reports.ParamsPresent | backend/app3.py:48-49 | (the same check as backend/app3.py:95-96) the parameters pass iff report type, start date and end date are all given and none is the empty string |
| Reports.InReport | backend/app3.py:56-62 | a row passes iff its resource name is the report type and its date lies in the inclusive range, plus, only for a non-empty asset name, the asset has that name |
| Reports.ReportSelection | backend/app3.py:52-64 | the selected rows are exactly the joined rows with resource name equal to the report type, date within the range inclusive and, only when the asset name is non-empty, that asset name |
| Reports.ReportRows | backend/app3.py:53 | one report row per selected row, in order, with the selected columns |
| Reports.ReportOf | backend/app3.py:52-65 | one report row per selected row, in order, with its columns; every report row's date is within the range and, for a non-empty asset name, carries that name; the report is empty iff the selection is |
| Reports.DownloadReport | backend/app3.py:40-85 | 400 "Missing parameters" iff a parameter is missing or empty; 404 iff nothing is selected; otherwise a PDF of the rows named `<type>_report_<start>_to_<end>.pdf` |
| Reports.PreviewReport | backend/app3.py:87-121 | 400 iff a parameter is missing or empty; otherwise the report rows, possibly none |
| Reports.DownloadMatchesPreview | backend/app3.py:48-117 | download and preview refuse the same requests, the PDF holds exactly the previewed rows, and an empty download (404) is an empty preview |
| Reports.EmptyAssetNameIsNoFilter | backend/app3.py:60-62 | an empty asset name selects the same rows as an absent one |
| Reports.NameFilterNarrows | backend/app3.py:60-62 | a report with a non-empty asset name is the unfiltered report narrowed to that asset name |
| Reports.ReversedRangeIsEmpty | backend/app3.py:56 | a start after the end selects nothing: the download answers 404 and the preview an empty list |
| Reports.AssetNamed | backend/app3.py:142 | the search condition holds exactly for rows whose asset name is the one searched |
| Reports.SearchSelection | backend/app3.py:132-145 | the found rows are exactly the joined rows whose asset has the name |
| Reports.SearchRows | backend/app3.py:144-152 | every search row names the asset searched for, one per found row, in order |
| Reports.SearchAsset | backend/app3.py:124-157 | 400 iff the asset name is missing or empty; 404 iff no joined row has it; otherwise the rows found |
| Reports.DownloadAssetSearch | backend/app3.py:159-200 | the same refusals as the search; otherwise a PDF of the rows found named `<asset>_report.pdf` |
| Reports.SearchMatchesDownload | backend/app3.py:124-196 | the search and its download refuse alike, and the PDF holds exactly the rows the search lists |

## Left out

- HTTP, JSON and CORS plumbing, and the Flask routes (`uploaded_file`, `get_resources`).
  `get_resources` returns the whole `resources` table. The React front end is not part
  of this model.
- MySQL itself: connections, cursors, `commit`, and atomicity. A crash between the archive
  insert and the delete in `delete_asset` is not modelled. The tables are in-memory
  sequences.
- Foreign keys and schema constraints other than the id keys. `add_asset` accepts any
  resource id, and `delete_resource` leaves that resource's assets in place.
- bcrypt is the `Hasher` parameter; salt generation is a parameter of `Signup`.
- werkzeug's `secure_filename` is the `Sanitizer` parameter. Saving and removing the files
  under `uploads` are not modelled.
- PDF rendering (pandas `to_html` and pdfkit). A PDF reply is modelled by its file name
  and the rows it renders.
- Date formatting (`DATE_FORMAT`, `strftime`). Dates are day numbers, and a report's date
  parameter carries both its query text and the day it denotes. The conversion of the
  query text to a date is not modelled.
- Failures outside the modelled status codes. `signup`, `login` and the `App.2.py` and
  `app3.py` handlers catch exceptions and answer 500. Most put the exception text in the
  reply; `get_recent_updates` answers the fixed text "Failed to fetch recent updates"
  (`backend/App.2.py:139-144`) and `get_resource_types` the fixed text "Failed to fetch
  resource types" (`backend/app3.py:36-38`). The
  `app.py` handlers from `get_resources` to `delete_asset` (`backend/app.py:106-274`) have
  no `try`, so a non-JSON or null body, or a database error, becomes Flask's own error
  response. None of these paths is modelled.
- The code's cursor row-access defects are replaced by the intended rule:
  - sign-up indexes a plain-cursor row by column name;
  - login reads the stored hash by position (`user[2]`);
  - the dashboard's recent-updates loop indexes plain-cursor rows by name;
  - `get_low_stock` passes mysql.connector's `MySQLCursorDict` (imported at
    `backend/App.2.py:4`) to a MySQLdb connection (`backend/App.2.py:68`), so as written
    its query cannot run and it answers 500 (`backend/App.2.py:101-103`);
  - `backend/app.py:105` is a `//` line that Python cannot parse.
- Inventory.Login: states the status only. The 200 and 401 JSON messages are fixed
  strings and are not modelled.
- Inventory.Store.AddAsset: form values are typed (a name string, integer counts, a day
  number). A JSON string sent for a count is not modelled. An empty date string, which
  `all([...])` treats as missing, is represented as an absent date (`None`).
- Inventory.LowerChar: lower-cases ASCII letters only, where Python's `str.lower` also
  folds other Unicode letters.
- Text comparison in SQL is modelled as exact, case-sensitive equality. MySQL's default
  collations compare text case-insensitively, and the schema is not part of this model.
  Inventory.SignupConflict, Inventory.UserByEmail, Reports.ReportSelection,
  Reports.SearchSelection and Reports.ResourceTypes therefore differ from the code for
  values that differ only in letter case. For example, with "Ann@x.org" registered, a
  sign-up with "ann@x.org" and a new id number is accepted by the model (201). The code
  finds the existing row, and Python's `==` then labels the clash "ID Number" (409).
  Likewise, login, the report and search filters, and `SELECT DISTINCT name` would treat
  such values as equal.
- Tables.SortBy: SQL leaves the order of equal keys unspecified. The model keeps table
  order among equal keys, so which tied rows survive a LIMIT is one admissible choice.

=== FILE: dashboard.dfy ===
/** The dashboard queries of backend/App.2.py: the row counts, the per-day stock
    timeline, the low-stock list and the recent-updates feed. All of them only read
    the `assets` and `resources` tables. */
module Dashboard {
  import opened Tables

  // ---------------------------------------------------------------- totals

  /** `SELECT COUNT(*)`, counting the rows one at a time; `get_total_assets` and
      `get_total_resources` apply it to `assets` and `resources`. */
  function CountRows<T>(rows: seq<T>): (n: nat)
    ensures n == |rows|
  {
    if rows == [] then 0 else 1 + CountRows(rows[1..])
  }

  // ---------------------------------------------------------------- timeline

  /** One point of the chart: a day and the summed `stock_count - deduction` of that day. */
  datatype Point = Point(day: int, totalAssets: int)

  /** What one row contributes to the timeline. */
  function Net(a: Asset): int {
    a.stockCount - a.deduction
  }

  /** `WHERE date = day`: the group of one day. */
  function DatedOn(day: int): Asset -> bool {
    (a: Asset) => a.date == day
  }

  /** `SUM(a.stock_count - a.deduction)` over the group of `day`: the net of exactly the
      assets dated `day`, and nothing for a day no asset has. */
  function DayTotal(assets: seq<Asset>, day: int): (t: int)
    ensures t == NetOf(Where(assets, DatedOn(day)))
    ensures (forall a :: a in assets ==> a.date != day) ==> t == 0
  {
    if assets == [] then 0
    else
      GroupStep(assets, day);
      (if assets[0].date == day then Net(assets[0]) else 0) + DayTotal(assets[1..], day)
  }

  /** The group of a day is the first asset, when it has that day, followed by the group
      of the remaining assets. */
  lemma GroupStep(assets: seq<Asset>, day: int)
    requires assets != []
    ensures NetOf(Where(assets, DatedOn(day)))
         == (if assets[0].date == day then Net(assets[0]) else 0) + NetOf(Where(assets[1..], DatedOn(day)))
  {
    var group := Where(assets[1..], DatedOn(day));
    assert ([assets[0]] + group)[1..] == group;
  }

  ghost predicate StrictlyAscending(days: seq<int>) {
    forall i, j :: 0 <= i < j < |days| ==> days[i] < days[j]
  }

  /** Adds `d` to the strictly ascending `days` unless it is there already. */
  function InsertDay(d: int, days: seq<int>): (r: seq<int>)
    requires StrictlyAscending(days)
    ensures StrictlyAscending(r)
    ensures forall x :: x in r <==> x == d || x in days
  {
    if days == [] || d < days[0] then [d] + days
    else if d == days[0] then days
    else
      var rest := InsertDay(d, days[1..]);
      assert days == [days[0]] + days[1..];
      assert forall k :: 0 <= k < |rest| ==> days[0] < rest[k] by {
        forall k | 0 <= k < |rest| ensures days[0] < rest[k] {
          assert rest[k] in rest;
        }
      }
      [days[0]] + rest
  }

  /** The keys of `GROUP BY date ORDER BY date ASC`: each date some asset has, once, ascending. */
  function Days(assets: seq<Asset>): (days: seq<int>)
    ensures StrictlyAscending(days)
    ensures forall d :: d in days <==> exists a :: a in assets && a.date == d
  {
    if assets == [] then []
    else
      assert assets == [assets[0]] + assets[1..];
      InsertDay(assets[0].date, Days(assets[1..]))
  }

  /** One point per day of `days`, carrying that day's total. */
  function PointsOf(assets: seq<Asset>, days: seq<int>): (points: seq<Point>)
    ensures |points| == |days|
    ensures forall i :: 0 <= i < |days| ==> points[i] == Point(days[i], DayTotal(assets, days[i]))
  {
    if days == [] then [] else [Point(days[0], DayTotal(assets, days[0]))] + PointsOf(assets, days[1..])
  }

  /** `get_asset_timeline`: one point per distinct day, strictly ascending by day, each
      carrying that day's total. */
  function Timeline(assets: seq<Asset>): (points: seq<Point>)
    ensures forall i, j :: 0 <= i < j < |points| ==> points[i].day < points[j].day
    ensures forall p :: p in points ==> p.totalAssets == DayTotal(assets, p.day)
    ensures forall p :: p in points ==> exists a :: a in assets && a.date == p.day
    ensures forall a :: a in assets ==> Point(a.date, DayTotal(assets, a.date)) in points
  {
    var days := Days(assets);
    var points := PointsOf(assets, days);
    forall p | p in points ensures exists a :: a in assets && a.date == p.day {
      var i :| 0 <= i < |points| && points[i] == p;
      assert days[i] in days;
    }
    forall a | a in assets ensures Point(a.date, DayTotal(assets, a.date)) in points {
      assert a.date in days;
      var i :| 0 <= i < |days| && days[i] == a.date;
      assert points[i] == Point(a.date, DayTotal(assets, a.date));
    }
    points
  }

  /** The summed `stock_count - deduction` of every asset. */
  function NetOf(assets: seq<Asset>): int {
    if assets == [] then 0 else Net(assets[0]) + NetOf(assets[1..])
  }

  function SumTotals(points: seq<Point>): int {
    if points == [] then 0 else points[0].totalAssets + SumTotals(points[1..])
  }

  /** The day totals of `assets` summed over `days`. */
  function SumDayTotals(assets: seq<Asset>, days: seq<int>): int {
    if days == [] then 0 else DayTotal(assets, days[0]) + SumDayTotals(assets, days[1..])
  }

  /** What a single asset contributes, summed over `days`. */
  function Hits(a: Asset, days: seq<int>): int {
    if days == [] then 0 else (if a.date == days[0] then Net(a) else 0) + Hits(a, days[1..])
  }

  lemma {:induction false} HitsNone(a: Asset, days: seq<int>)
    requires a.date !in days
    ensures Hits(a, days) == 0
  {
    if days != [] {
      assert days == [days[0]] + days[1..];
      HitsNone(a, days[1..]);
    }
  }

  /** A day that occurs once among `days` collects the asset's net exactly once. */
  lemma {:induction false} HitsOnce(a: Asset, days: seq<int>)
    requires StrictlyAscending(days) && a.date in days
    ensures Hits(a, days) == Net(a)
  {
    assert days == [days[0]] + days[1..];
    if a.date == days[0] {
      assert a.date !in days[1..] by {
        forall k | 0 <= k < |days[1..]| ensures days[1..][k] != a.date {
          assert days[1..][k] == days[k + 1];
        }
      }
      HitsNone(a, days[1..]);
    } else {
      HitsOnce(a, days[1..]);
    }
  }

  lemma {:induction false} SplitFirstAsset(a: Asset, rest: seq<Asset>, days: seq<int>)
    ensures SumDayTotals([a] + rest, days) == Hits(a, days) + SumDayTotals(rest, days)
  {
    if days != [] {
      assert ([a] + rest)[1..] == rest;
      SplitFirstAsset(a, rest, days[1..]);
    }
  }

  lemma {:induction false} NoAssetsNoTotals(days: seq<int>)
    ensures SumDayTotals([], days) == 0
  {
    if days != [] {
      NoAssetsNoTotals(days[1..]);
    }
  }

  /** Over days that cover every asset's date once, the day totals add up to the whole net. */
  lemma {:induction false} DayTotalsAddUp(assets: seq<Asset>, days: seq<int>)
    requires StrictlyAscending(days)
    requires forall a :: a in assets ==> a.date in days
    ensures SumDayTotals(assets, days) == NetOf(assets)
  {
    if assets != [] {
      var a, rest := assets[0], assets[1..];
      assert assets == [a] + rest;
      SplitFirstAsset(a, rest, days);
      assert a in assets;
      HitsOnce(a, days);
      forall x | x in rest ensures x.date in days {
        assert x in assets;
      }
      DayTotalsAddUp(rest, days);
    } else {
      NoAssetsNoTotals(days);
    }
  }

  lemma {:induction false} SumTotalsByDay(assets: seq<Asset>, days: seq<int>, points: seq<Point>)
    requires |points| == |days|
    requires forall i :: 0 <= i < |days| ==> points[i] == Point(days[i], DayTotal(assets, days[i]))
    ensures SumTotals(points) == SumDayTotals(assets, days)
  {
    if days != [] {
      SumTotalsByDay(assets, days[1..], points[1..]);
    }
  }

  /** Grouping by day loses nothing: the chart's totals add up to the net stock of all assets. */
  lemma TimelineAddsUp(assets: seq<Asset>)
    ensures SumTotals(Timeline(assets)) == NetOf(assets)
  {
    var days := Days(assets);
    SumTotalsByDay(assets, days, Timeline(assets));
    DayTotalsAddUp(assets, days);
  }

  // ---------------------------------------------------------------- low stock

  /** A row of `lowStockItems`; `lastUpdated` is the day number of the asset's date. */
  datatype LowStockItem = LowStockItem(
    id: int, resourceName: string, assetName: string, stockCount: int, lastUpdated: int, section: string)

  /** `WHERE a.stock_count < 10`. */
  function IsLowStock(j: Joined): bool {
    j.asset.stockCount < 10
  }

  function StockOf(j: Joined): int {
    j.asset.stockCount
  }

  /** The query of `get_low_stock`: assets below 10 joined with their resource, ordered by
      ascending stock count, at most 5 of them; a candidate left out only when 5 rows were
      kept, and then none of the kept rows has a larger count than it. */
  function LowStockRows(assets: seq<Asset>, resources: seq<Resource>): (rows: seq<Joined>)
    ensures |rows| <= 5
    ensures |rows| == if |Where(Join(assets, resources), IsLowStock)| < 5 then |Where(Join(assets, resources), IsLowStock)| else 5
    ensures forall j :: j in rows ==>
      j.asset in assets && j.resource in resources && j.asset.resourceId == j.resource.id && j.asset.stockCount < 10
    ensures Ascending(rows, StockOf)
    ensures multiset(rows) <= multiset(Join(assets, resources))
    ensures forall j :: j in Join(assets, resources) && j.asset.stockCount < 10 && j !in rows ==>
      |rows| == 5 && forall k :: k in rows ==> k.asset.stockCount <= j.asset.stockCount
  {
    var low := Where(Join(assets, resources), IsLowStock);
    var rows := OrderLimit(low, StockOf, 5);
    forall j | j in rows
      ensures j.asset in assets && j.resource in resources && j.asset.resourceId == j.resource.id && j.asset.stockCount < 10
    {
      assert j in low;
    }
    forall j | j in Join(assets, resources) && j.asset.stockCount < 10 && j !in rows
      ensures |rows| == 5 && forall k :: k in rows ==> k.asset.stockCount <= j.asset.stockCount
    {
      assert j in low;
      forall k | k in rows ensures k.asset.stockCount <= j.asset.stockCount {
        assert StockOf(k) <= StockOf(j);
      }
    }
    assert multiset(rows) <= multiset(Join(assets, resources));
    rows
  }

  /** A copy of a low-stock joined row, repeated rows included, is left out only when 5 rows
      were kept, and then none of the kept rows has a larger stock count than it. */
  lemma LowStockCut(assets: seq<Asset>, resources: seq<Resource>)
    ensures var rows := LowStockRows(assets, resources);
      forall j :: IsLowStock(j) && multiset(rows)[j] < multiset(Join(assets, resources))[j] ==>
        |rows| == 5 && forall k :: k in rows ==> StockOf(k) <= StockOf(j)
  {
    OrderLimitWhere(Join(assets, resources), IsLowStock, StockOf, 5);
  }

  function ToLowStockItem(j: Joined): LowStockItem {
    LowStockItem(j.asset.id, j.resource.name, j.asset.name, j.asset.stockCount, j.asset.date, j.resource.section)
  }

  /** The list comprehension of `get_low_stock`: one item per row, in order. */
  function ToLowStockItems(rows: seq<Joined>): (items: seq<LowStockItem>)
    ensures |items| == |rows|
    ensures forall i :: 0 <= i < |rows| ==> items[i] == ToLowStockItem(rows[i])
  {
    if rows == [] then [] else [ToLowStockItem(rows[0])] + ToLowStockItems(rows[1..])
  }

  /** `get_low_stock`: at most 5 items, all below 10, in ascending order of stock count, each
      made from an asset and the resource it belongs to. */
  function LowStock(assets: seq<Asset>, resources: seq<Resource>): (items: seq<LowStockItem>)
    ensures |items| <= 5
    ensures |items| == |LowStockRows(assets, resources)|
    ensures forall i :: 0 <= i < |items| ==> items[i] == ToLowStockItem(LowStockRows(assets, resources)[i])
    ensures forall i :: 0 <= i < |items| ==> items[i].stockCount < 10
    ensures forall i, k :: 0 <= i < k < |items| ==> items[i].stockCount <= items[k].stockCount
    ensures forall i :: 0 <= i < |items| ==> exists a, r ::
      a in assets && r in resources && a.resourceId == r.id && items[i] == ToLowStockItem(Joined(a, r))
  {
    var rows := LowStockRows(assets, resources);
    var items := ToLowStockItems(rows);
    LowStockItemsFacts(assets, resources, rows, items);
    items
  }

  /** The items made from the low-stock rows inherit the rows' bounds, order and origin. */
  lemma LowStockItemsFacts(assets: seq<Asset>, resources: seq<Resource>, rows: seq<Joined>, items: seq<LowStockItem>)
    requires forall j :: j in rows ==>
      j.asset in assets && j.resource in resources && j.asset.resourceId == j.resource.id && j.asset.stockCount < 10
    requires Ascending(rows, StockOf)
    requires |items| == |rows| && forall i :: 0 <= i < |rows| ==> items[i] == ToLowStockItem(rows[i])
    ensures forall i :: 0 <= i < |items| ==> items[i].stockCount < 10
    ensures forall i, k :: 0 <= i < k < |items| ==> items[i].stockCount <= items[k].stockCount
    ensures forall i :: 0 <= i < |items| ==> exists a, r ::
      a in assets && r in resources && a.resourceId == r.id && items[i] == ToLowStockItem(Joined(a, r))
  {
    forall i | 0 <= i < |items| ensures items[i].stockCount < 10 {
      assert rows[i] in rows;
    }
    forall i | 0 <= i < |items| ensures exists a, r ::
      a in assets && r in resources && a.resourceId == r.id && items[i] == ToLowStockItem(Joined(a, r))
    {
      var j := rows[i];
      assert j in rows;
      assert Joined(j.asset, j.resource) == j;
    }
    assert forall i :: 0 <= i < |items| ==> exists a, r ::
      a in assets && r in resources && a.resourceId == r.id && items[i] == ToLowStockItem(Joined(a, r));
    forall i, k | 0 <= i < k < |items| ensures items[i].stockCount <= items[k].stockCount {
      assert StockOf(rows[i]) <= StockOf(rows[k]);
    }
  }

  // ---------------------------------------------------------------- recent updates

  /** An entry of the `recentUpdates` feed; `date` is the day number of the asset's date. */
  datatype Update = Update(id: int, item: string, action: string, quantity: nat, date: int)

  /** Sort key for `ORDER BY a.date DESC`. */
  function Recency(j: Joined): int {
    -j.asset.date
  }

  /** The query of `get_recent_updates`: every asset joined with its resource, newest first,
      at most 10; a row left out only when 10 were kept, none of them older than it. */
  function RecentRows(assets: seq<Asset>, resources: seq<Resource>): (rows: seq<Joined>)
    ensures |rows| <= 10
    ensures |rows| == if |Join(assets, resources)| < 10 then |Join(assets, resources)| else 10
    ensures forall i, k :: 0 <= i < k < |rows| ==> rows[i].asset.date >= rows[k].asset.date
    ensures multiset(rows) <= multiset(Join(assets, resources))
    ensures forall j :: j in Join(assets, resources) && j !in rows ==>
      |rows| == 10 && forall k :: k in rows ==> j.asset.date <= k.asset.date
    ensures forall j :: multiset(rows)[j] < multiset(Join(assets, resources))[j] ==>
      |rows| == 10 && forall k :: k in rows ==> j.asset.date <= k.asset.date
  {
    var rows := OrderLimit(Join(assets, resources), Recency, 10);
    forall i, k | 0 <= i < k < |rows| ensures rows[i].asset.date >= rows[k].asset.date {
      assert Recency(rows[i]) <= Recency(rows[k]);
    }
    rows
  }

  /** The feed entry of one row: the item is "<resource name> (<asset name>)", the action is
      "Increased" exactly when the deduction is negative, and the quantity is the size of the
      deduction, so that the action and quantity give the deduction back. */
  function Describe(j: Joined): (u: Update)
    ensures u.id == j.asset.id && u.date == j.asset.date
    ensures u.action == "Increased" <==> j.asset.deduction < 0
    ensures u.action == "Increased" || u.action == "Decreased"
    ensures j.asset.deduction == if u.action == "Increased" then -(u.quantity as int) else u.quantity
    ensures var n := |j.resource.name|;
      && |u.item| == n + |j.asset.name| + 3
      && u.item[..n] == j.resource.name
      && u.item[n..n + 2] == " ("
      && u.item[n + 2..|u.item| - 1] == j.asset.name
      && u.item[|u.item| - 1] == ')'
  {
    var d := j.asset.deduction;
    Update(j.asset.id, j.resource.name + " (" + j.asset.name + ")",
           if d < 0 then "Increased" else "Decreased",
           if d < 0 then -d else d,
           j.asset.date)
  }

  /** The formatting loop of `get_recent_updates`: one entry per row, in order. */
  method FormatUpdates(updates: seq<Joined>) returns (formatted: seq<Update>)
    ensures |formatted| == |updates|
    ensures forall i :: 0 <= i < |updates| ==> formatted[i] == Describe(updates[i])
  {
    formatted := [];
    for i := 0 to |updates|
      invariant |formatted| == i
      invariant forall k :: 0 <= k < i ==> formatted[k] == Describe(updates[k])
    {
      var update := updates[i];
      var action := if update.asset.deduction < 0 then "Increased" else "Decreased";
      var quantity := if update.asset.deduction < 0 then -update.asset.deduction else update.asset.deduction;
      formatted := formatted + [Update(update.asset.id,
                                       update.resource.name + " (" + update.asset.name + ")",
                                       action, quantity, update.asset.date)];
    }
  }

  /** `get_recent_updates`: at most 10 entries, newest first, each describing one joined row. */
  method RecentUpdates(assets: seq<Asset>, resources: seq<Resource>) returns (feed: seq<Update>)
    ensures |feed| <= 10
    ensures |feed| == |RecentRows(assets, resources)|
    ensures forall i :: 0 <= i < |feed| ==> feed[i] == Describe(RecentRows(assets, resources)[i])
    ensures forall i, k :: 0 <= i < k < |feed| ==> feed[i].date >= feed[k].date
    ensures forall i :: 0 <= i < |feed| ==> exists j :: j in Join(assets, resources) && feed[i] == Describe(j)
  {
    var rows := RecentRows(assets, resources);
    feed := FormatUpdates(rows);
    forall i | 0 <= i < |feed| ensures exists j :: j in Join(assets, resources) && feed[i] == Describe(j) {
      var j := rows[i];
      assert j in multiset(rows);
      assert j in Join(assets, resources) && feed[i] == Describe(j);
    }
  }
}

=== FILE: inventory.dfy ===
/** The inventory service of backend/app.py: sign-up and login over `userss`,
    the image-upload rule, and the create/update/delete handlers over
    `resources`, `assets` and `deleted_assets`. The database is the `Store`
    class, whose fields are the tables; each handler is a method returning the
    HTTP status and JSON body it would send. */
module Inventory {
  import opened Tables

  /** The JSON body of a reply. */
  datatype Body =
    | Message(text: string)                  // {"message": text}
    | Error(text: string)                    // {"error": text}
    | CreatedResource(resource: Resource)    // the inserted resource row, with its new id
    | CreatedAsset(asset: Asset)             // the inserted asset row, with its new id

  datatype Reply = Reply(status: int, body: Body)

  /** bcrypt's digest of a password under a salt; the library itself is not modelled. */
  type Hasher = (string, string) -> string

  /** werkzeug's `secure_filename`, whose behaviour is not modelled. */
  type Sanitizer = string -> string

  // ---------------------------------------------------------------- uploads

  const AllowedExtensions: set<string> := {"png", "jpg", "jpeg", "gif"}

  /** Python's `str.lower` on the ASCII letters. */
  function LowerChar(c: char): char {
    if 'A' <= c <= 'Z' then (c as int - 'A' as int + 'a' as int) as char else c
  }

  function Lower(s: string): (r: string)
    ensures |r| == |s|
    ensures forall i :: 0 <= i < |s| ==> r[i] == LowerChar(s[i])
  {
    if s == [] then [] else [LowerChar(s[0])] + Lower(s[1..])
  }

  /** `filename.rsplit('.', 1)[1]`: the text after the last dot, when there is a dot. */
  function Extension(filename: string): (e: Option<string>)
    ensures e.None? <==> '.' !in filename
    ensures e.Some? ==>
      && |e.value| < |filename|
      && filename[|filename| - |e.value| - 1] == '.'
      && filename[|filename| - |e.value|..] == e.value
      && '.' !in e.value
  {
    if filename == [] then None
    else
      var n := |filename| - 1;
      assert filename == filename[..n] + [filename[n]];
      if filename[n] == '.' then Some([])
      else match Extension(filename[..n])
        case None => None
        case Some(e) => Some(e + [filename[n]])
  }

  /** `allowed_file`: the name has a dot, and the text after its last dot, lower-cased,
      is one of the allowed image extensions. A trailing dot leaves an empty extension. */
  function AllowedFile(filename: string): (ok: bool)
    ensures ok <==> exists i :: 0 <= i < |filename| && filename[i] == '.'
                      && '.' !in filename[i + 1..] && Lower(filename[i + 1..]) in AllowedExtensions
    ensures |filename| > 0 && filename[|filename| - 1] == '.' ==> !ok
  {
    match Extension(filename)
    case None => false
    case Some(e) =>
      LastDotExtension(filename, e);
      Lower(e) in AllowedExtensions
  }

  /** The extension is the text after the one dot that has no dot after it. */
  lemma LastDotExtension(filename: string, e: string)
    requires Extension(filename) == Some(e)
    ensures forall i :: 0 <= i < |filename| && filename[i] == '.' && '.' !in filename[i + 1..] ==> filename[i + 1..] == e
    ensures exists i :: 0 <= i < |filename| && filename[i] == '.' && '.' !in filename[i + 1..] && filename[i + 1..] == e
  {
    var k := |filename| - |e| - 1;
    assert filename[k + 1..] == e;
    forall i | 0 <= i < |filename| && filename[i] == '.' && '.' !in filename[i + 1..] ensures filename[i + 1..] == e {
      LastDotUnique(filename, i, k);
    }
  }

  /** A name has only one dot with no dot after it. */
  lemma LastDotUnique(filename: string, i: int, k: int)
    requires 0 <= i < |filename| && filename[i] == '.' && '.' !in filename[i + 1..]
    requires 0 <= k < |filename| && filename[k] == '.' && '.' !in filename[k + 1..]
    ensures i == k
  {
  }

  // ---------------------------------------------------------------- users

  /** The JSON keys sign-up requires. */
  const SignupFields: set<string> :=
    {"firstName", "lastName", "dateOfBirth", "email", "position", "idNumber", "phoneNumber", "password"}

  /** Every required key is present; its value may be anything, the empty string included. */
  predicate HasSignupFields(data: map<string, string>): (ok: bool)
    ensures ok <==> forall f :: f in SignupFields ==> f in data
    ensures ok ==> "email" in data && "idNumber" in data && "password" in data
  {
    SignupFields <= data.Keys
  }

  /** `bcrypt.checkpw`: hashing the password with the stored salt gives the stored digest. */
  predicate CheckPassword(hash: Hasher, password: string, stored: PasswordHash): (ok: bool)
    ensures ok <==> stored == PasswordHash(stored.salt, hash(stored.salt, password))
  {
    hash(stored.salt, password) == stored.digest
  }

  /** No two users share an email or an id number. */
  ghost predicate UniqueUsers(users: seq<User>) {
    forall i, j :: 0 <= i < j < |users| ==> users[i].email != users[j].email && users[i].idNumber != users[j].idNumber
  }

  /** `WHERE email = %s OR id_number = %s`. */
  function UserClashing(email: string, idNumber: string): User -> bool {
    (u: User) => u.email == email || u.idNumber == idNumber
  }

  /** `WHERE email = %s`. */
  function UserWithEmail(email: string): User -> bool {
    (u: User) => u.email == email
  }

  /** The sign-up duplicate check: no label when no user has the email or the id number;
      otherwise the first such user decides the label, "Email" when its email is the one
      given and "ID Number" when only its id number is. */
  function SignupConflict(users: seq<User>, email: string, idNumber: string): (conflict: Option<string>)
    ensures conflict.None? <==> forall u :: u in users ==> u.email != email && u.idNumber != idNumber
    ensures conflict.Some? ==> conflict.value == "Email" || conflict.value == "ID Number"
    ensures conflict == Some("Email") ==> exists u :: u in users && u.email == email
    ensures conflict == Some("ID Number") ==> exists u :: u in users && u.idNumber == idNumber && u.email != email
  {
    match FetchOne(users, UserClashing(email, idNumber))
    case None => None
    case Some(u) =>
      assert u in Where(users, UserClashing(email, idNumber));
      Some(if u.email == email then "Email" else "ID Number")
  }

  /** The row sign-up inserts: the fields as given and, in place of the password, its salted digest. */
  function NewUser(data: map<string, string>, salt: string, hash: Hasher): (u: User)
    requires HasSignupFields(data)
    ensures u.email == data["email"] && u.idNumber == data["idNumber"]
    ensures u.password.salt == salt && CheckPassword(hash, data["password"], u.password)
  {
    User(data["firstName"], data["lastName"], data["dateOfBirth"], data["email"],
         data["position"], data["idNumber"], data["phoneNumber"],
         PasswordHash(salt, hash(salt, data["password"])))
  }

  /** A user that clashes with nobody may be added without breaking uniqueness. */
  lemma RegisteringKeepsUsersUnique(users: seq<User>, u: User)
    requires UniqueUsers(users)
    requires SignupConflict(users, u.email, u.idNumber).None?
    ensures UniqueUsers(users + [u])
  {
    var all := users + [u];
    forall i, j | 0 <= i < j < |all| ensures all[i].email != all[j].email && all[i].idNumber != all[j].idNumber {
      if j == |users| {
        assert all[i] in users;
      }
    }
  }

  /** `SELECT * FROM userss WHERE email = %s` followed by `fetchone()`. */
  function UserByEmail(users: seq<User>, email: string): (found: Option<User>)
    ensures found.None? <==> forall u :: u in users ==> u.email != email
    ensures found.Some? ==> found.value in users && found.value.email == email
  {
    var r := FetchOne(users, UserWithEmail(email));
    assert r.Some? ==> r.value in Where(users, UserWithEmail(email));
    r
  }

  /** `login`: 401 when no user has the email (a missing username matches nobody), 500 when
      a user is found but no password was sent, otherwise 200 exactly when the password
      checks against the stored hash. */
  function Login(users: seq<User>, hash: Hasher, username: Option<string>, password: Option<string>): (status: int)
    ensures status == 200 || status == 401 || status == 500
    ensures status == 500 <==> username.Some? && UserByEmail(users, username.value).Some? && password.None?
    ensures status == 200 ==>
      password.Some? && exists u :: u in users && Some(u.email) == username && CheckPassword(hash, password.value, u.password)
    ensures UniqueUsers(users) && username.Some? && password.Some? ==>
      (status == 200 <==> exists u :: u in users && u.email == username.value && CheckPassword(hash, password.value, u.password))
  {
    if username.None? then 401
    else
      match UserByEmail(users, username.value)
      case None => 401
      case Some(u) =>
        if password.None? then 500
        else
          assert UniqueUsers(users) ==> forall v :: v in users && v.email == username.value ==> v == u by {
            if UniqueUsers(users) {
              forall v | v in users && v.email == username.value ensures v == u {
                var i :| 0 <= i < |users| && users[i] == v;
                var j :| 0 <= j < |users| && users[j] == u;
                assert i == j;
              }
            }
          }
          if CheckPassword(hash, password.value, u.password) then 200 else 401
  }

  /** A user who has just signed up can log in with the email and password they gave. */
  lemma SignupThenLogin(users: seq<User>, data: map<string, string>, salt: string, hash: Hasher)
    requires UniqueUsers(users) && HasSignupFields(data)
    requires SignupConflict(users, data["email"], data["idNumber"]).None?
    ensures Login(users + [NewUser(data, salt, hash)], hash, Some(data["email"]), Some(data["password"])) == 200
  {
    var u := NewUser(data, salt, hash);
    RegisteringKeepsUsersUnique(users, u);
    assert u in users + [u];
  }

  // ---------------------------------------------------------------- resources and assets

  /** `WHERE id = %s` on `resources`. */
  function ResourceWithId(id: int): Resource -> bool {
    (r: Resource) => r.id == id
  }

  /** `WHERE id = %s` on `assets`. */
  function AssetWithId(id: int): Asset -> bool {
    (a: Asset) => a.id == id
  }

  /** `WHERE resource_id = %s` on `assets`. */
  function AssetOfResource(resourceId: int): Asset -> bool {
    (a: Asset) => a.resourceId == resourceId
  }

  function ResourceKey(r: Resource): int { r.id }

  function AssetKey(a: Asset): int { a.id }

  /** `id` is a key of `resources` and below its AUTO_INCREMENT counter. */
  ghost predicate ResourceTableValid(resources: seq<Resource>, nextId: int) {
    DistinctKeys(resources, ResourceKey) && KeysBelow(resources, ResourceKey, nextId)
  }

  /** `id` is a key of `assets` and of `deleted_assets`, no id is both live and archived,
      and all ids are below the AUTO_INCREMENT counter of `assets`. */
  ghost predicate AssetTablesValid(assets: seq<Asset>, deleted: seq<Asset>, nextId: int) {
    && DistinctKeys(assets, AssetKey)
    && DistinctKeys(deleted, AssetKey)
    && (forall a, d :: a in assets && d in deleted ==> a.id != d.id)
    && KeysBelow(assets, AssetKey, nextId)
    && KeysBelow(deleted, AssetKey, nextId)
  }

  /** `SELECT * FROM resources WHERE id = %s` followed by `fetchone()`. */
  function ResourceById(resources: seq<Resource>, id: int): (found: Option<Resource>)
    ensures found.None? <==> forall r :: r in resources ==> r.id != id
    ensures found.Some? ==> found.value in resources && found.value.id == id
  {
    var r := FetchOne(resources, ResourceWithId(id));
    assert r.Some? ==> r.value in Where(resources, ResourceWithId(id));
    r
  }

  /** `SELECT * FROM assets WHERE id = %s` followed by `fetchone()`. */
  function AssetById(assets: seq<Asset>, id: int): (found: Option<Asset>)
    ensures found.None? <==> forall a :: a in assets ==> a.id != id
    ensures found.Some? ==> found.value in assets && found.value.id == id
  {
    var r := FetchOne(assets, AssetWithId(id));
    assert r.Some? ==> r.value in Where(assets, AssetWithId(id));
    r
  }

  /** `get_assets`: exactly the assets of the resource, in table order. */
  function AssetsOf(assets: seq<Asset>, resourceId: int): (r: seq<Asset>)
    ensures forall a :: a in r <==> a in assets && a.resourceId == resourceId
    ensures multiset(r) <= multiset(assets)
  {
    Where(assets, AssetOfResource(resourceId))
  }

  /** A resource inserted with an id no other row has is what a later lookup by that id returns. */
  lemma AddedResourceIsFetched(resources: seq<Resource>, r: Resource)
    requires forall x :: x in resources ==> x.id < r.id
    ensures ResourceById(resources + [r], r.id) == Some(r)
  {
    var found := ResourceById(resources + [r], r.id);
    assert r in resources + [r];
    assert found.value !in resources;
  }

  /** The values `update_resource` writes: an empty or missing name or section keeps the
      old one, and the image changes only when an uploaded file has an allowed extension. */
  function Revised(current: Resource, name: Option<string>, section: Option<string>,
                   image: Option<string>, secure: Sanitizer): (r: Resource)
    ensures r.id == current.id
    ensures r.name == if Filled(name) then name.value else current.name
    ensures r.section == if Filled(section) then section.value else current.section
    ensures r.imagePath != current.imagePath ==> Filled(image) && AllowedFile(image.value)
    ensures Filled(image) && AllowedFile(image.value) ==> r.imagePath == secure(image.value)
  {
    Resource(current.id,
             if Filled(name) then name.value else current.name,
             if Filled(section) then section.value else current.section,
             if Filled(image) && AllowedFile(image.value) then secure(image.value) else current.imagePath)
  }

  /** The JSON of `add_asset` and `update_asset`; `date` is the day number of the date sent. */
  datatype AssetForm = AssetForm(name: Option<string>, stockCount: Option<int>, deduction: Option<int>, date: Option<int>)

  /** `all([name, stock_count, deduction, date])`: every field is present and truthy, so a
      stock count of 0 or a deduction of 0 counts as missing. */
  predicate AssetFormComplete(f: AssetForm): (ok: bool)
    ensures ok ==> f.name.Some? && f.stockCount.Some? && f.deduction.Some? && f.date.Some?
    ensures f.name == Some("") || f.stockCount == Some(0) || f.deduction == Some(0) ==> !ok
    ensures (Filled(f.name) && f.date.Some? && f.stockCount.Some? && f.deduction.Some?
             && f.stockCount.value != 0 && f.deduction.value != 0) ==> ok
  {
    Filled(f.name) && f.stockCount.Some? && f.stockCount.value != 0
    && f.deduction.Some? && f.deduction.value != 0 && f.date.Some?
  }

  /** An asset that is the only row with its id is the one row a delete by that id removes. */
  lemma {:induction false} OnlyRowWithId(assets: seq<Asset>, a: Asset)
    requires DistinctKeys(assets, AssetKey) && a in assets
    ensures Where(assets, AssetWithId(a.id)) == [a]
  {
    assert assets == [assets[0]] + assets[1..];
    if assets[0] == a {
      forall x | x in assets[1..] ensures x.id != a.id {
        var j :| 0 <= j < |assets[1..]| && assets[1..][j] == x;
        assert assets[j + 1] == x;
      }
      assert Where(assets[1..], AssetWithId(a.id)) == [];
    } else {
      var i :| 0 <= i < |assets| && assets[i] == a;
      assert assets[0].id != a.id;
      assert assets[1..][i - 1] == a;
      OnlyRowWithId(assets[1..], a);
    }
  }

  /** Deleting by the id of a row that is the only one with its id removes that row and
      keeps every other row. */
  lemma RemoveOnlyRow(assets: seq<Asset>, a: Asset)
    requires DistinctKeys(assets, AssetKey) && a in assets
    ensures var kept := DeleteWhere(assets, AssetWithId(a.id));
      && |kept| == |assets| - 1
      && a !in kept
      && forall x :: x in assets && x != a ==> x in kept
  {
    var kept := DeleteWhere(assets, AssetWithId(a.id));
    OnlyRowWithId(assets, a);
    assert multiset(kept) + multiset{a} == multiset(assets);
    assert |multiset(kept)| + 1 == |multiset(assets)|;
  }

  /** Appending a row with the next counter value and advancing the counter keeps the asset tables valid. */
  lemma InsertKeepsAssetTablesValid(assets: seq<Asset>, deleted: seq<Asset>, nextId: int, a: Asset)
    requires AssetTablesValid(assets, deleted, nextId) && a.id == nextId
    ensures AssetTablesValid(assets + [a], deleted, nextId + 1)
  {
    var r := assets + [a];
    forall i, j | 0 <= i < j < |r| ensures AssetKey(r[i]) != AssetKey(r[j]) {
      if j == |assets| { assert r[i] in assets; }
    }
  }

  /** An UPDATE of `assets` that leaves the id column alone keeps the asset tables valid. */
  lemma OverwriteKeepsAssetTablesValid(assets: seq<Asset>, deleted: seq<Asset>, nextId: int,
                                       p: Asset -> bool, f: Asset -> Asset)
    requires AssetTablesValid(assets, deleted, nextId)
    requires forall x :: f(x).id == x.id
    ensures AssetTablesValid(UpdateWhere(assets, p, f), deleted, nextId)
  {
    var updated := UpdateWhere(assets, p, f);
    UpdateWhereKeepsKeys(assets, p, f, AssetKey, nextId);
    forall a, d | a in updated && d in deleted ensures a.id != d.id {
      var i :| 0 <= i < |updated| && updated[i] == a;
      assert assets[i] in assets;
    }
  }

  /** Moving the row with a live id from `assets` to the end of `deleted_assets` keeps the
      asset tables valid. */
  lemma ArchiveKeepsAssetTablesValid(assets: seq<Asset>, deleted: seq<Asset>, nextId: int, id: int, a: Asset)
    requires AssetTablesValid(assets, deleted, nextId) && a in assets && a.id == id
    ensures AssetTablesValid(DeleteWhere(assets, AssetWithId(id)), deleted + [a], nextId)
  {
    var kept := DeleteWhere(assets, AssetWithId(id));
    DeleteWhereKeepsKeys(assets, AssetWithId(id), AssetKey);
    var archive := deleted + [a];
    forall i, j | 0 <= i < j < |archive| ensures AssetKey(archive[i]) != AssetKey(archive[j]) {
      if j == |deleted| { assert archive[i] in deleted; }
    }
    forall x, d | x in kept && d in archive ensures x.id != d.id {
      assert x in assets && !AssetWithId(id)(x);
      if d != a { assert d in deleted; }
    }
    assert KeysBelow(archive, AssetKey, nextId) by {
      forall d | d in archive ensures AssetKey(d) < nextId {
        if d != a { assert d in deleted; }
      }
    }
  }

  /** The column update of `update_resource`: name, section and image path are taken from `r`. */
  function ReviseTo(r: Resource): Resource -> Resource {
    (x: Resource) => x.(name := r.name, section := r.section, imagePath := r.imagePath)
  }

  /** Rewriting the row with `r`'s id to `r` keeps the resource table valid and changes
      no other row. */
  lemma ReviseRow(resources: seq<Resource>, nextId: int, id: int, r: Resource)
    requires ResourceTableValid(resources, nextId) && r.id == id
    ensures var updated := UpdateWhere(resources, ResourceWithId(id), ReviseTo(r));
      && ResourceTableValid(updated, nextId)
      && |updated| == |resources|
      && forall i :: 0 <= i < |updated| ==> updated[i] == if resources[i].id == id then r else resources[i]
  {
    var updated := UpdateWhere(resources, ResourceWithId(id), ReviseTo(r));
    UpdateWhereKeepsKeys(resources, ResourceWithId(id), ReviseTo(r), ResourceKey, nextId);
    forall i | 0 <= i < |updated| ensures updated[i] == if resources[i].id == id then r else resources[i] {
      if resources[i].id == id {
        assert updated[i] == ReviseTo(r)(resources[i]);
      }
    }
  }

  /** The database: the four tables and the AUTO_INCREMENT counters of `resources` and `assets`. */
  class Store {
    var users: seq<User>
    var resources: seq<Resource>
    var assets: seq<Asset>
    var deletedAssets: seq<Asset>
    var nextResourceId: int
    var nextAssetId: int

    /** Users are unique by email and by id number; the id columns are keys below their
        counters; an asset id is live or archived, never both. */
    ghost predicate Valid()
      reads this
    {
      && UniqueUsers(users)
      && ResourceTableValid(resources, nextResourceId)
      && AssetTablesValid(assets, deletedAssets, nextAssetId)
    }

    constructor ()
      ensures Valid()
      ensures users == [] && resources == [] && assets == [] && deletedAssets == []
    {
      users, resources, assets, deletedAssets := [], [], [], [];
      nextResourceId, nextAssetId := 1, 1;
    }

    /** `signup`. */
    method Signup(data: map<string, string>, salt: string, hash: Hasher) returns (reply: Reply)
      requires Valid()
      modifies this`users
      ensures Valid()
      ensures !HasSignupFields(data) ==>
        reply == Reply(400, Message("Missing required fields")) && users == old(users)
      ensures HasSignupFields(data) && SignupConflict(old(users), data["email"], data["idNumber"]).Some? ==>
        && reply == Reply(409, Message(SignupConflict(old(users), data["email"], data["idNumber"]).value + " already exists!"))
        && users == old(users)
      ensures HasSignupFields(data) && SignupConflict(old(users), data["email"], data["idNumber"]).None? ==>
        && reply == Reply(201, Message("User registered successfully!"))
        && users == old(users) + [NewUser(data, salt, hash)]
    {
      if !HasSignupFields(data) {
        return Reply(400, Message("Missing required fields"));
      }
      var clash := SignupConflict(users, data["email"], data["idNumber"]);
      if clash.Some? {
        return Reply(409, Message(clash.value + " already exists!"));
      }
      var u := NewUser(data, salt, hash);
      RegisteringKeepsUsersUnique(users, u);
      users := users + [u];
      reply := Reply(201, Message("User registered successfully!"));
    }

    /** `add_resource`; `image` is the name of the uploaded file, if a file part was sent. */
    method AddResource(name: Option<string>, section: Option<string>, image: Option<string>, secure: Sanitizer)
      returns (reply: Reply)
      requires Valid()
      modifies this`resources, this`nextResourceId
      ensures Valid()
      ensures !(Filled(name) && Filled(section) && Filled(image)) ==>
        && reply == Reply(400, Error("Missing required fields"))
        && resources == old(resources) && nextResourceId == old(nextResourceId)
      ensures Filled(name) && Filled(section) && Filled(image) && !AllowedFile(image.value) ==>
        && reply == Reply(400, Error("Invalid file type"))
        && resources == old(resources) && nextResourceId == old(nextResourceId)
      ensures Filled(name) && Filled(section) && Filled(image) && AllowedFile(image.value) ==>
        var r := Resource(old(nextResourceId), name.value, section.value, secure(image.value));
        && reply == Reply(201, CreatedResource(r))
        && resources == old(resources) + [r]
        && nextResourceId == old(nextResourceId) + 1
    {
      if !Filled(name) || !Filled(section) || !Filled(image) {
        return Reply(400, Error("Missing required fields"));
      }
      if !AllowedFile(image.value) {
        return Reply(400, Error("Invalid file type"));
      }
      var r := Resource(nextResourceId, name.value, section.value, secure(image.value));
      forall i, j | 0 <= i < j < |resources + [r]|
        ensures ResourceKey((resources + [r])[i]) != ResourceKey((resources + [r])[j])
      {
        if j == |resources| { assert resources[i] in resources; }
      }
      resources := resources + [r];
      nextResourceId := nextResourceId + 1;
      reply := Reply(201, CreatedResource(r));
    }

    /** `update_resource`. */
    method UpdateResource(id: int, name: Option<string>, section: Option<string>, image: Option<string>,
                          secure: Sanitizer) returns (reply: Reply)
      requires Valid()
      modifies this`resources
      ensures Valid()
      ensures ResourceById(old(resources), id).None? ==>
        reply == Reply(404, Error("Resource not found")) && resources == old(resources)
      ensures ResourceById(old(resources), id).Some? ==>
        var r := Revised(ResourceById(old(resources), id).value, name, section, image, secure);
        && reply == Reply(200, Message("Resource updated successfully"))
        && |resources| == |old(resources)|
        && forall i :: 0 <= i < |resources| ==>
             resources[i] == if old(resources)[i].id == id then r else old(resources)[i]
    {
      var found := ResourceById(resources, id);
      if found.None? {
        return Reply(404, Error("Resource not found"));
      }
      var r := Revised(found.value, name, section, image, secure);
      ReviseRow(resources, nextResourceId, id, r);
      Rewrite(id, r);
      reply := Reply(200, Message("Resource updated successfully"));
    }

    /** The UPDATE statement of `update_resource`: the row with the id takes `r`'s columns. */
    method Rewrite(id: int, r: Resource)
      requires Valid() && r.id == id
      modifies this`resources
      ensures Valid()
      ensures resources == UpdateWhere(old(resources), ResourceWithId(id), ReviseTo(r))
    {
      ReviseRow(resources, nextResourceId, id, r);
      var updated := UpdateWhere(resources, ResourceWithId(id), ReviseTo(r));
      assert ResourceTableValid(updated, nextResourceId);
      resources := updated;
    }

    /** `delete_resource`; removing the image file is not modelled. */
    method DeleteResource(id: int) returns (reply: Reply)
      requires Valid()
      modifies this`resources
      ensures Valid()
      ensures ResourceById(old(resources), id).None? ==>
        reply == Reply(404, Error("Resource not found")) && resources == old(resources)
      ensures ResourceById(old(resources), id).Some? ==>
        && reply == Reply(200, Message("Resource deleted successfully"))
        && resources == DeleteWhere(old(resources), ResourceWithId(id))
        && forall r :: r in resources <==> r in old(resources) && r.id != id
    {
      var found := ResourceById(resources, id);
      if found.None? {
        return Reply(404, Error("Resource not found"));
      }
      var kept := DeleteWhere(resources, ResourceWithId(id));
      DeleteWhereKeepsKeys(resources, ResourceWithId(id), ResourceKey);
      resources := kept;
      reply := Reply(200, Message("Resource deleted successfully"));
    }

    /** `add_asset` under the resource `resourceId`. */
    method AddAsset(resourceId: int, form: AssetForm) returns (reply: Reply)
      requires Valid()
      modifies this`assets, this`nextAssetId
      ensures Valid()
      ensures !AssetFormComplete(form) ==>
        && reply == Reply(400, Error("Missing required fields"))
        && assets == old(assets) && nextAssetId == old(nextAssetId)
      ensures AssetFormComplete(form) ==>
        var a := Asset(old(nextAssetId), resourceId, form.name.value, form.stockCount.value,
                       form.deduction.value, form.date.value);
        && reply == Reply(201, CreatedAsset(a))
        && assets == old(assets) + [a]
        && nextAssetId == old(nextAssetId) + 1
    {
      if !AssetFormComplete(form) {
        return Reply(400, Error("Missing required fields"));
      }
      var a := Asset(nextAssetId, resourceId, form.name.value, form.stockCount.value,
                     form.deduction.value, form.date.value);
      InsertKeepsAssetTablesValid(assets, deletedAssets, nextAssetId, a);
      assets := assets + [a];
      nextAssetId := nextAssetId + 1;
      reply := Reply(201, CreatedAsset(a));
    }

    /** `update_asset`: success is reported even when no asset has the id. */
    method UpdateAsset(id: int, form: AssetForm) returns (reply: Reply)
      requires Valid()
      modifies this`assets
      ensures Valid()
      ensures !AssetFormComplete(form) ==>
        reply == Reply(400, Error("Missing required fields")) && assets == old(assets)
      ensures AssetFormComplete(form) ==>
        && reply == Reply(200, Message("Asset updated successfully"))
        && |assets| == |old(assets)|
        && forall i :: 0 <= i < |assets| ==>
             assets[i] == if old(assets)[i].id == id
                          then old(assets)[i].(name := form.name.value, stockCount := form.stockCount.value,
                                               deduction := form.deduction.value, date := form.date.value)
                          else old(assets)[i]
      ensures AssetById(old(assets), id).None? ==> assets == old(assets)
    {
      if !AssetFormComplete(form) {
        return Reply(400, Error("Missing required fields"));
      }
      var overwrite := (a: Asset) => a.(name := form.name.value, stockCount := form.stockCount.value,
                                        deduction := form.deduction.value, date := form.date.value);
      OverwriteKeepsAssetTablesValid(assets, deletedAssets, nextAssetId, AssetWithId(id), overwrite);
      assets := UpdateWhere(assets, AssetWithId(id), overwrite);
      reply := Reply(200, Message("Asset updated successfully"));
    }

    /** `delete_asset`: the row is copied into `deleted_assets`, then removed from `assets`. */
    method DeleteAsset(id: int) returns (reply: Reply)
      requires Valid()
      modifies this`assets, this`deletedAssets
      ensures Valid()
      ensures AssetById(old(assets), id).None? ==>
        && reply == Reply(404, Error("Asset not found"))
        && assets == old(assets) && deletedAssets == old(deletedAssets)
      ensures AssetById(old(assets), id).Some? ==>
        var a := AssetById(old(assets), id).value;
        && reply == Reply(200, Message("Asset moved to deleted_assets table"))
        && deletedAssets == old(deletedAssets) + [a]
        && assets == DeleteWhere(old(assets), AssetWithId(id))
        && |assets| == |old(assets)| - 1
        && a !in assets
        && forall x :: x in old(assets) && x != a ==> x in assets
    {
      var found := AssetById(assets, id);
      if found.None? {
        return Reply(404, Error("Asset not found"));
      }
      RemoveOnlyRow(assets, found.value);
      Archive(id, found.value);
      reply := Reply(200, Message("Asset moved to deleted_assets table"));
    }

    /** The two statements of `delete_asset`: the INSERT into `deleted_assets` and the DELETE. */
    method Archive(id: int, a: Asset)
      requires AssetTablesValid(assets, deletedAssets, nextAssetId) && a in assets && a.id == id
      modifies this`assets, this`deletedAssets
      ensures AssetTablesValid(assets, deletedAssets, nextAssetId)
      ensures deletedAssets == old(deletedAssets) + [a]
      ensures assets == DeleteWhere(old(assets), AssetWithId(id))
    {
      ArchiveKeepsAssetTablesValid(assets, deletedAssets, nextAssetId, id, a);
      var kept, archive := DeleteWhere(assets, AssetWithId(id)), deletedAssets + [a];
      assert AssetTablesValid(kept, archive, nextAssetId);
      assets, deletedAssets := kept, archive;
    }
  }
}

=== FILE: reports.dfy ===
/** The report endpoints of backend/app3.py: the list of resource types, the filtered
    stock report (previewed as rows or downloaded as a PDF) and the search of assets by
    name (listed or downloaded). All of them only read `assets` and `resources`. */
module Reports {
  import opened Tables

  /** What an endpoint answers: an error with its status, the rows as JSON (status 200),
      or a PDF attachment of the rows under a file name (status 200). */
  datatype Response<R> =
    | Failure(status: int, error: string)
    | Rows(rows: seq<R>)
    | Pdf(filename: string, rows: seq<R>)

  // ---------------------------------------------------------------- resource types

  /** `SELECT DISTINCT name FROM resources`: each resource name once, in the order of
      its first appearance. */
  function ResourceTypes(resources: seq<Resource>): (types: seq<string>)
    ensures |types| <= |resources|
    ensures forall i, j :: 0 <= i < j < |types| ==> types[i] != types[j]
    ensures forall n :: n in types <==> exists r :: r in resources && r.name == n
  {
    if resources == [] then []
    else
      var init, last := resources[..|resources| - 1], resources[|resources| - 1];
      assert resources == init + [last];
      var seen := ResourceTypes(init);
      if last.name in seen then seen else seen + [last.name]
  }

  /** A sequence without repetitions holds each of its elements exactly once. */
  lemma {:induction false} DistinctOnce<T>(xs: seq<T>, x: T)
    requires forall i, j :: 0 <= i < j < |xs| ==> xs[i] != xs[j]
    requires x in xs
    ensures multiset(xs)[x] == 1
  {
    assert xs == [xs[0]] + xs[1..];
    var tail := xs[1..];
    if x == xs[0] {
      forall k | 0 <= k < |tail| ensures tail[k] != x {
        assert tail[k] == xs[k + 1];
      }
      assert multiset(tail)[x] == 0;
    } else {
      DistinctOnce(tail, x);
    }
  }

  /** Every resource's name is listed once among the resource types. */
  lemma TypeListedOnce(resources: seq<Resource>, r: Resource)
    requires r in resources
    ensures multiset(ResourceTypes(resources))[r.name] == 1
  {
    DistinctOnce(ResourceTypes(resources), r.name);
  }

  // ---------------------------------------------------------------- stock report

  /** A `startDate` or `endDate` query argument: its text, which goes into the file name,
      and the day number it denotes, which the database compares. */
  datatype DateParam = DateParam(text: string, day: int)

  /** A column set of the report: `a.name, a.stock_count, a.deduction, a.date, r.section`. */
  datatype ReportRow = ReportRow(name: string, stockCount: int, deduction: int, date: int, section: string)

  /** `reportType`, `startDate` and `endDate` are all given and non-empty. */
  predicate ParamsPresent(reportType: Option<string>, startDate: Option<DateParam>, endDate: Option<DateParam>): (ok: bool)
    ensures ok ==> reportType.Some? && startDate.Some? && endDate.Some?
    ensures (reportType == Some("") || (startDate.Some? && startDate.value.text == "")
             || (endDate.Some? && endDate.value.text == "")) ==> !ok
    ensures (Filled(reportType) && startDate.Some? && endDate.Some?
             && startDate.value.text != "" && endDate.value.text != "") ==> ok
  {
    Filled(reportType) && startDate.Some? && startDate.value.text != "" && endDate.Some? && endDate.value.text != ""
  }

  /** The WHERE clause of the report: the resource is named `reportType`, the asset's date
      lies between the two days inclusive, and, only when `assetName` is non-empty, the
      asset has that name. */
  function InReport(reportType: string, startDay: int, endDay: int, assetName: Option<string>): (p: Joined -> bool)
    ensures forall j :: p(j) ==> j.resource.name == reportType && startDay <= j.asset.date <= endDay
    ensures !Filled(assetName) ==>
      forall j :: p(j) <==> j.resource.name == reportType && startDay <= j.asset.date <= endDay
    ensures Filled(assetName) ==>
      forall j :: p(j) <==> j.resource.name == reportType && startDay <= j.asset.date <= endDay
                            && j.asset.name == assetName.value
  {
    (j: Joined) => j.resource.name == reportType && startDay <= j.asset.date <= endDay
      && (Filled(assetName) ==> j.asset.name == assetName.value)
  }

  /** The joined rows the report query selects, in table order. */
  function ReportSelection(assets: seq<Asset>, resources: seq<Resource>, reportType: string,
                           startDay: int, endDay: int, assetName: Option<string>): (sel: seq<Joined>)
    ensures forall j :: j in sel <==>
      (j in Join(assets, resources) && j.resource.name == reportType
       && startDay <= j.asset.date <= endDay && (Filled(assetName) ==> j.asset.name == assetName.value))
    ensures multiset(sel) <= multiset(Join(assets, resources))
  {
    Where(Join(assets, resources), InReport(reportType, startDay, endDay, assetName))
  }

  function ToReportRow(j: Joined): ReportRow {
    ReportRow(j.asset.name, j.asset.stockCount, j.asset.deduction, j.asset.date, j.resource.section)
  }

  /** The selected columns of each selected row, in order. */
  function ReportRows(sel: seq<Joined>): (rows: seq<ReportRow>)
    ensures |rows| == |sel|
    ensures forall i :: 0 <= i < |sel| ==> rows[i] == ToReportRow(sel[i])
  {
    if sel == [] then [] else [ToReportRow(sel[0])] + ReportRows(sel[1..])
  }

  /** The rows of a report with the given parameters; the parameters must be present. */
  function ReportOf(assets: seq<Asset>, resources: seq<Resource>, reportType: Option<string>,
                    startDate: Option<DateParam>, endDate: Option<DateParam>, assetName: Option<string>): (rows: seq<ReportRow>)
    requires ParamsPresent(reportType, startDate, endDate)
    ensures forall row :: row in rows ==>
      startDate.value.day <= row.date <= endDate.value.day && (Filled(assetName) ==> row.name == assetName.value)
    ensures rows == [] <==> ReportSelection(assets, resources, reportType.value, startDate.value.day, endDate.value.day, assetName) == []
    ensures var sel := ReportSelection(assets, resources, reportType.value, startDate.value.day, endDate.value.day, assetName);
      |rows| == |sel| && forall i :: 0 <= i < |sel| ==> rows[i] == ToReportRow(sel[i])
  {
    var sel := ReportSelection(assets, resources, reportType.value, startDate.value.day, endDate.value.day, assetName);
    var rows := ReportRows(sel);
    forall row | row in rows ensures
      startDate.value.day <= row.date <= endDate.value.day && (Filled(assetName) ==> row.name == assetName.value)
    {
      var i :| 0 <= i < |rows| && rows[i] == row;
      assert sel[i] in sel;
    }
    rows
  }

  /** `download_asset_report`: 400 unless the three parameters are present, 404 when
      nothing is selected, otherwise the selected rows as a PDF named after the report
      type and the two date texts. */
  function DownloadReport(assets: seq<Asset>, resources: seq<Resource>, reportType: Option<string>,
                          startDate: Option<DateParam>, endDate: Option<DateParam>, assetName: Option<string>)
    : (resp: Response<ReportRow>)
    ensures resp == Failure(400, "Missing parameters") <==> !ParamsPresent(reportType, startDate, endDate)
    ensures ParamsPresent(reportType, startDate, endDate) ==>
      (resp == Failure(404, "No data found for the selected criteria") <==>
       ReportSelection(assets, resources, reportType.value, startDate.value.day, endDate.value.day, assetName) == [])
    ensures resp.Failure? || resp.Pdf?
    ensures resp.Pdf? ==> ParamsPresent(reportType, startDate, endDate)
    ensures ParamsPresent(reportType, startDate, endDate)
            && ReportSelection(assets, resources, reportType.value, startDate.value.day, endDate.value.day, assetName) != []
            ==> resp.Pdf?
    ensures resp.Pdf? && ParamsPresent(reportType, startDate, endDate) ==>
      resp.rows != [] && resp.rows == ReportOf(assets, resources, reportType, startDate, endDate, assetName)
    ensures resp.Pdf? && ParamsPresent(reportType, startDate, endDate) ==>
      resp.filename == reportType.value + "_report_" + startDate.value.text + "_to_" + endDate.value.text + ".pdf"
  {
    if !ParamsPresent(reportType, startDate, endDate) then Failure(400, "Missing parameters")
    else
      var rows := ReportOf(assets, resources, reportType, startDate, endDate, assetName);
      if rows == [] then Failure(404, "No data found for the selected criteria")
      else Pdf(reportType.value + "_report_" + startDate.value.text + "_to_" + endDate.value.text + ".pdf", rows)
  }

  /** `preview_asset_report`: 400 unless the three parameters are present, otherwise the
      selected rows, possibly none. */
  function PreviewReport(assets: seq<Asset>, resources: seq<Resource>, reportType: Option<string>,
                         startDate: Option<DateParam>, endDate: Option<DateParam>, assetName: Option<string>)
    : (resp: Response<ReportRow>)
    ensures resp == Failure(400, "Missing parameters") <==> !ParamsPresent(reportType, startDate, endDate)
    ensures resp.Failure? || resp.Rows?
    ensures resp.Rows? ==> ParamsPresent(reportType, startDate, endDate)
    ensures ParamsPresent(reportType, startDate, endDate) ==> resp.Rows?
    ensures resp.Rows? && ParamsPresent(reportType, startDate, endDate) ==>
      resp.rows == ReportOf(assets, resources, reportType, startDate, endDate, assetName)
  {
    if !ParamsPresent(reportType, startDate, endDate) then Failure(400, "Missing parameters")
    else Rows(ReportOf(assets, resources, reportType, startDate, endDate, assetName))
  }

  /** Download and preview select the same rows: both refuse the same requests, the PDF
      holds exactly the previewed rows, and where the download finds nothing the preview
      is an empty list. */
  lemma DownloadMatchesPreview(assets: seq<Asset>, resources: seq<Resource>, reportType: Option<string>,
                               startDate: Option<DateParam>, endDate: Option<DateParam>, assetName: Option<string>)
    ensures var d := DownloadReport(assets, resources, reportType, startDate, endDate, assetName);
      var p := PreviewReport(assets, resources, reportType, startDate, endDate, assetName);
      (d.Failure? && d.status == 400 <==> p.Failure?)
      && (d.Pdf? ==> p == Rows(d.rows))
      && (d.Failure? && d.status == 404 ==> p == Rows([]))
  {
  }

  /** An absent and an empty `assetName` both mean "no asset-name filter". */
  lemma {:induction false} EmptyAssetNameIsNoFilter(assets: seq<Asset>, resources: seq<Resource>,
                                                    reportType: string, startDay: int, endDay: int)
    ensures ReportSelection(assets, resources, reportType, startDay, endDay, Some(""))
         == ReportSelection(assets, resources, reportType, startDay, endDay, None)
  {
    WhereSame(Join(assets, resources), InReport(reportType, startDay, endDay, Some("")),
              InReport(reportType, startDay, endDay, None));
  }

  /** A report filtered by a non-empty asset name is the unfiltered report narrowed by the
      asset search's condition, in the same order. */
  lemma {:induction false} NameFilterNarrows(assets: seq<Asset>, resources: seq<Resource>,
                                             reportType: string, startDay: int, endDay: int, name: string)
    requires name != ""
    ensures ReportSelection(assets, resources, reportType, startDay, endDay, Some(name))
         == Where(ReportSelection(assets, resources, reportType, startDay, endDay, None), AssetNamed(name))
  {
    WhereWhere(Join(assets, resources), InReport(reportType, startDay, endDay, None), AssetNamed(name),
               InReport(reportType, startDay, endDay, Some(name)));
  }

  /** `BETWEEN` with the start after the end selects nothing: the download answers 404 and
      the preview an empty list. */
  lemma ReversedRangeIsEmpty(assets: seq<Asset>, resources: seq<Resource>, reportType: Option<string>,
                             startDate: Option<DateParam>, endDate: Option<DateParam>, assetName: Option<string>)
    requires ParamsPresent(reportType, startDate, endDate) && startDate.value.day > endDate.value.day
    ensures DownloadReport(assets, resources, reportType, startDate, endDate, assetName)
         == Failure(404, "No data found for the selected criteria")
    ensures PreviewReport(assets, resources, reportType, startDate, endDate, assetName) == Rows([])
  {
  }

  // ---------------------------------------------------------------- asset search

  /** A row of the asset search: `a.name, r.name, a.stock_count, a.deduction, a.date, r.section`. */
  datatype SearchRow = SearchRow(assetName: string, resourceName: string, stockCount: int,
                                 deduction: int, date: int, section: string)

  /** `WHERE a.name = name`. */
  function AssetNamed(name: string): (p: Joined -> bool)
    ensures forall j :: p(j) <==> j.asset.name == name
  {
    (j: Joined) => j.asset.name == name
  }

  /** The joined rows whose asset is called `name`, in table order. */
  function SearchSelection(assets: seq<Asset>, resources: seq<Resource>, name: string): (sel: seq<Joined>)
    ensures forall j :: j in sel <==> j in Join(assets, resources) && j.asset.name == name
    ensures multiset(sel) <= multiset(Join(assets, resources))
  {
    Where(Join(assets, resources), AssetNamed(name))
  }

  function ToSearchRow(j: Joined): SearchRow {
    SearchRow(j.asset.name, j.resource.name, j.asset.stockCount, j.asset.deduction, j.asset.date, j.resource.section)
  }

  /** The rows the search finds for `name`, each naming that asset. */
  function SearchRows(assets: seq<Asset>, resources: seq<Resource>, name: string): (rows: seq<SearchRow>)
    ensures forall row :: row in rows ==> row.assetName == name
    ensures |rows| == |SearchSelection(assets, resources, name)|
    ensures forall i :: 0 <= i < |rows| ==> rows[i] == ToSearchRow(SearchSelection(assets, resources, name)[i])
  {
    var sel := SearchSelection(assets, resources, name);
    var rows := seq(|sel|, i requires 0 <= i < |sel| => ToSearchRow(sel[i]));
    forall row | row in rows ensures row.assetName == name {
      var i :| 0 <= i < |rows| && rows[i] == row;
      assert sel[i] in sel;
    }
    rows
  }

  /** `search_asset`: 400 without a non-empty `assetName`, 404 when no asset has that
      name, otherwise the rows found. */
  function SearchAsset(assets: seq<Asset>, resources: seq<Resource>, assetName: Option<string>): (resp: Response<SearchRow>)
    ensures resp == Failure(400, "Asset name is required") <==> !Filled(assetName)
    ensures Filled(assetName) ==>
      (resp == Failure(404, "No assets found with that name") <==> SearchSelection(assets, resources, assetName.value) == [])
    ensures resp.Failure? || resp.Rows?
    ensures resp.Rows? ==> Filled(assetName)
    ensures Filled(assetName) && SearchSelection(assets, resources, assetName.value) != [] ==> resp.Rows?
    ensures resp.Rows? && Filled(assetName) ==>
      resp.rows != [] && resp.rows == SearchRows(assets, resources, assetName.value)
  {
    if !Filled(assetName) then Failure(400, "Asset name is required")
    else
      var rows := SearchRows(assets, resources, assetName.value);
      if rows == [] then Failure(404, "No assets found with that name") else Rows(rows)
  }

  /** `download_asset_search`: the same answers as the search, except that the rows found
      come as a PDF named after the asset. */
  function DownloadAssetSearch(assets: seq<Asset>, resources: seq<Resource>, assetName: Option<string>)
    : (resp: Response<SearchRow>)
    ensures resp == Failure(400, "Asset name is required") <==> !Filled(assetName)
    ensures Filled(assetName) ==>
      (resp == Failure(404, "No assets found with that name") <==> SearchSelection(assets, resources, assetName.value) == [])
    ensures resp.Failure? || resp.Pdf?
    ensures resp.Pdf? ==> Filled(assetName)
    ensures Filled(assetName) && SearchSelection(assets, resources, assetName.value) != [] ==> resp.Pdf?
    ensures resp.Pdf? && Filled(assetName) ==>
      resp.rows != [] && resp.rows == SearchRows(assets, resources, assetName.value)
    ensures resp.Pdf? && Filled(assetName) ==> resp.filename == assetName.value + "_report.pdf"
  {
    if !Filled(assetName) then Failure(400, "Asset name is required")
    else
      var rows := SearchRows(assets, resources, assetName.value);
      if rows == [] then Failure(404, "No assets found with that name")
      else Pdf(assetName.value + "_report.pdf", rows)
  }

  /** The search and its download agree: the same refusals, and the PDF holds exactly the
      rows the search lists. */
  lemma SearchMatchesDownload(assets: seq<Asset>, resources: seq<Resource>, assetName: Option<string>)
    ensures var s := SearchAsset(assets, resources, assetName);
      var d := DownloadAssetSearch(assets, resources, assetName);
      (s.Failure? <==> d.Failure?) && (s.Failure? ==> s == d) && (s.Rows? ==> d.Pdf? && d.rows == s.rows)
  {
  }
}

=== FILE: tables.dfy ===
/** The four tables of the `hospital_inventory` database (`userss`,
    `resources`, `assets`, `deleted_assets`) as rows, and the relational
    operations the request handlers run over them: selection with a WHERE
    condition, fetching one row, the inner join of assets with their
    resource, UPDATE ... WHERE, and ORDER BY on an integer column.
    Dates are day numbers. */
module Tables {

  datatype Option<+T> = None | Some(value: T)

  /** A request field is given and is not the empty string (Python truthiness of a string). */
  predicate Filled(s: Option<string>) {
    s.Some? && s.value != ""
  }

  /** What bcrypt stores: the salt the digest was made with, and the digest. */
  datatype PasswordHash = PasswordHash(salt: string, digest: string)

  /** A row of `userss`. */
  datatype User = User(
    firstName: string, lastName: string, dateOfBirth: string, email: string,
    position: string, idNumber: string, phoneNumber: string, password: PasswordHash)

  /** A row of `resources`: a named category of stock with a section and an image file name. */
  datatype Resource = Resource(id: int, name: string, section: string, imagePath: string)

  /** A row of `assets`; `deleted_assets` has the same columns and holds the same kind of row.
      A negative `deduction` records an increase of stock, a positive one a decrease. */
  datatype Asset = Asset(id: int, resourceId: int, name: string, stockCount: int, deduction: int, date: int)

  /** A row of `assets a JOIN resources r ON a.resource_id = r.id`. */
  datatype Joined = Joined(asset: Asset, resource: Resource)

  /** `SELECT * FROM rows WHERE p`: the rows satisfying `p`, in table order. */
  function Where<T(==,!new)>(rows: seq<T>, p: T -> bool): (r: seq<T>)
    ensures |r| <= |rows|
    ensures forall x :: x in r <==> x in rows && p(x)
    ensures multiset(r) <= multiset(rows)
    ensures (forall x :: x in rows ==> !p(x)) ==> r == []
  {
    if rows == [] then []
    else
      var rest := Where(rows[1..], p);
      assert rows == [rows[0]] + rows[1..];
      if p(rows[0]) then [rows[0]] + rest else rest
  }

  /** `WHERE p` keeps every copy of a row satisfying `p` and no copy of any other row. */
  lemma WhereCount<T(!new)>(rows: seq<T>, p: T -> bool, x: T)
    ensures multiset(Where(rows, p))[x] == if p(x) then multiset(rows)[x] else 0
  {
    var kept := DeleteWhere(rows, p);
    if p(x) {
      assert x !in kept;
    } else {
      assert x !in Where(rows, p);
    }
  }

  /** Selecting with two predicates equal at every row gives the same rows. */
  lemma {:induction false} WhereSame<T(!new)>(rows: seq<T>, p: T -> bool, q: T -> bool)
    requires forall x :: p(x) == q(x)
    ensures Where(rows, p) == Where(rows, q)
  {
    if rows != [] {
      WhereSame(rows[1..], p, q);
    }
  }

  /** Selecting with `p` and then with `q` is selecting once with their conjunction `pq`. */
  lemma {:induction false} WhereWhere<T(!new)>(rows: seq<T>, p: T -> bool, q: T -> bool, pq: T -> bool)
    requires forall x :: pq(x) == (p(x) && q(x))
    ensures Where(Where(rows, p), q) == Where(rows, pq)
  {
    if rows != [] {
      WhereWhere(rows[1..], p, q, pq);
      var rest := Where(rows[1..], p);
      if p(rows[0]) {
        assert Where(rows, p) == [rows[0]] + rest;
        assert ([rows[0]] + rest)[1..] == rest;
      }
    }
  }

  /** `DELETE FROM rows WHERE p`: the rows not satisfying `p`, in table order; with the
      rows `p` selects they make up the whole table again. */
  function DeleteWhere<T(==,!new)>(rows: seq<T>, p: T -> bool): (r: seq<T>)
    ensures forall x :: x in r <==> x in rows && !p(x)
    ensures multiset(r) + multiset(Where(rows, p)) == multiset(rows)
  {
    if rows == [] then []
    else
      var rest := DeleteWhere(rows[1..], p);
      KeepStep(rows, p, rest);
      PartitionStep(rows, p, rest);
      if p(rows[0]) then rest else [rows[0]] + rest
  }

  /** The first row goes to the selected rows or to the kept rows, never to both. */
  lemma PartitionStep<T(!new)>(rows: seq<T>, p: T -> bool, rest: seq<T>)
    requires rows != []
    requires multiset(rest) + multiset(Where(rows[1..], p)) == multiset(rows[1..])
    ensures multiset(if p(rows[0]) then rest else [rows[0]] + rest) + multiset(Where(rows, p)) == multiset(rows)
  {
    assert rows == [rows[0]] + rows[1..];
    PartitionCount(rows[0], rows[1..], p, rest);
  }

  /** Putting the first row back in front when `p` rejects it keeps exactly the rejected rows. */
  lemma KeepStep<T(!new)>(rows: seq<T>, p: T -> bool, rest: seq<T>)
    requires rows != []
    requires forall x :: x in rest <==> x in rows[1..] && !p(x)
    ensures forall x :: x in (if p(rows[0]) then rest else [rows[0]] + rest) <==> x in rows && !p(x)
  {
    forall x ensures x in (if p(rows[0]) then rest else [rows[0]] + rest) <==> x in rows && !p(x) {
      assert x in rows <==> x == rows[0] || x in rows[1..];
    }
  }

  /** The count half of `PartitionStep`, with the first row and the others apart. */
  lemma PartitionCount<T(!new)>(h: T, tail: seq<T>, p: T -> bool, rest: seq<T>)
    requires multiset(rest) + multiset(Where(tail, p)) == multiset(tail)
    ensures multiset(if p(h) then rest else [h] + rest) + multiset(Where([h] + tail, p)) == multiset([h] + tail)
  {
    var rows := [h] + tail;
    assert rows[0] == h && rows[1..] == tail;
    var w := Where(tail, p);
    if p(h) {
      assert Where(rows, p) == [h] + w;
    } else {
      assert Where(rows, p) == w;
    }
  }

  /** No two rows agree on `key`: it is a key of the table. */
  ghost predicate DistinctKeys<T>(rows: seq<T>, key: T -> int) {
    forall i, j :: 0 <= i < j < |rows| ==> key(rows[i]) != key(rows[j])
  }

  /** Every row's `key` is below `bound` (an AUTO_INCREMENT counter). */
  ghost predicate KeysBelow<T>(rows: seq<T>, key: T -> int, bound: int) {
    forall x :: x in rows ==> key(x) < bound
  }

  /** An UPDATE that does not touch the key column keeps it a key, and keeps it below its counter. */
  lemma UpdateWhereKeepsKeys<T(!new)>(rows: seq<T>, p: T -> bool, f: T -> T, key: T -> int, bound: int)
    requires forall x :: key(f(x)) == key(x)
    ensures DistinctKeys(rows, key) ==> DistinctKeys(UpdateWhere(rows, p, f), key)
    ensures KeysBelow(rows, key, bound) ==> KeysBelow(UpdateWhere(rows, p, f), key, bound)
  {
    var r := UpdateWhere(rows, p, f);
    assert forall i :: 0 <= i < |r| ==> key(r[i]) == key(rows[i]);
    if KeysBelow(rows, key, bound) {
      forall y | y in r ensures key(y) < bound {
        var i :| 0 <= i < |r| && r[i] == y;
        assert rows[i] in rows;
      }
    }
  }

  /** Deleting rows keeps a key a key. */
  lemma {:induction false} DeleteWhereKeepsKeys<T(!new)>(rows: seq<T>, p: T -> bool, key: T -> int)
    requires DistinctKeys(rows, key)
    ensures DistinctKeys(DeleteWhere(rows, p), key)
  {
    if rows != [] {
      var tail := rows[1..];
      assert DistinctKeys(tail, key) by {
        forall i, j | 0 <= i < j < |tail| ensures key(tail[i]) != key(tail[j]) {
          assert tail[i] == rows[i + 1] && tail[j] == rows[j + 1];
        }
      }
      DeleteWhereKeepsKeys(tail, p, key);
      var rest := DeleteWhere(tail, p);
      if !p(rows[0]) {
        HeadKeyNotInRest(rows, p, key);
        ConsKeepsKeys(rows[0], rest, key);
        assert DeleteWhere(rows, p) == [rows[0]] + rest;
      }
    }
  }

  lemma HeadKeyNotInRest<T(!new)>(rows: seq<T>, p: T -> bool, key: T -> int)
    requires rows != [] && DistinctKeys(rows, key)
    ensures forall y :: y in DeleteWhere(rows[1..], p) ==> key(rows[0]) != key(y)
  {
    forall y | y in DeleteWhere(rows[1..], p) ensures key(rows[0]) != key(y) {
      var k :| 0 <= k < |rows[1..]| && rows[1..][k] == y;
      assert rows[k + 1] == y;
    }
  }

  lemma ConsKeepsKeys<T>(h: T, rows: seq<T>, key: T -> int)
    requires DistinctKeys(rows, key)
    requires forall y :: y in rows ==> key(h) != key(y)
    ensures DistinctKeys([h] + rows, key)
  {
    var r := [h] + rows;
    forall i, j | 0 <= i < j < |r| ensures key(r[i]) != key(r[j]) {
      assert r[j] == rows[j - 1];
      if i > 0 { assert r[i] == rows[i - 1]; }
    }
  }

  /** `fetchone()` after `SELECT * FROM rows WHERE p`: the first selected row, if any. */
  function FetchOne<T(==,!new)>(rows: seq<T>, p: T -> bool): (r: Option<T>)
    ensures r.None? <==> Where(rows, p) == []
    ensures r.Some? ==> r.value == Where(rows, p)[0]
  {
    if rows == [] then None
    else if p(rows[0]) then Some(rows[0])
    else FetchOne(rows[1..], p)
  }

  /** `UPDATE rows SET f WHERE p`: every row satisfying `p` is replaced by `f` of it;
      every other row, the order and the number of rows stay as they were. */
  function UpdateWhere<T(!new)>(rows: seq<T>, p: T -> bool, f: T -> T): (r: seq<T>)
    ensures |r| == |rows|
    ensures forall i :: 0 <= i < |rows| ==> r[i] == if p(rows[i]) then f(rows[i]) else rows[i]
    ensures (forall x :: x in rows ==> !p(x)) ==> r == rows
  {
    if rows == [] then []
    else [if p(rows[0]) then f(rows[0]) else rows[0]] + UpdateWhere(rows[1..], p, f)
  }

  /** The resources one asset joins with. */
  function JoinAsset(a: Asset, resources: seq<Resource>): (r: seq<Joined>)
    ensures forall j :: j in r <==> j.asset == a && j.resource in resources && a.resourceId == j.resource.id
    ensures forall j ::
      multiset(r)[j] == (if j.asset == a && a.resourceId == j.resource.id then multiset(resources)[j.resource] else 0)
  {
    if resources == [] then []
    else
      var rest := JoinAsset(a, resources[1..]);
      assert resources == [resources[0]] + resources[1..];
      if resources[0].id == a.resourceId then [Joined(a, resources[0])] + rest else rest
  }

  /** The inner join of `assets` with `resources` on `resource_id = id`: an asset whose
      resource is missing produces no row. */
  function Join(assets: seq<Asset>, resources: seq<Resource>): (r: seq<Joined>)
    ensures forall j :: j in r <==> j.asset in assets && j.resource in resources && j.asset.resourceId == j.resource.id
    ensures forall j ::
      multiset(r)[j] == (if j.asset.resourceId == j.resource.id
                         then multiset(assets)[j.asset] * multiset(resources)[j.resource] else 0)
  {
    if assets == [] then []
    else
      var first, rest := JoinAsset(assets[0], resources), Join(assets[1..], resources);
      assert assets == [assets[0]] + assets[1..];
      JoinCountStep(assets[0], assets[1..], resources, first, rest);
      first + rest
  }

  /** The join rows of a first asset and those of the remaining assets together count each
      pair as often as the asset occurs times as often as the resource occurs. */
  lemma JoinCountStep(a: Asset, rest: seq<Asset>, resources: seq<Resource>, first: seq<Joined>, tail: seq<Joined>)
    requires forall j ::
      multiset(first)[j] == (if j.asset == a && a.resourceId == j.resource.id then multiset(resources)[j.resource] else 0)
    requires forall j ::
      multiset(tail)[j] == (if j.asset.resourceId == j.resource.id
                            then multiset(rest)[j.asset] * multiset(resources)[j.resource] else 0)
    ensures forall j ::
      multiset(first + tail)[j] == (if j.asset.resourceId == j.resource.id
                                    then multiset([a] + rest)[j.asset] * multiset(resources)[j.resource] else 0)
  {
    assert multiset(first + tail) == multiset(first) + multiset(tail);
    forall j ensures multiset(first + tail)[j] == (if j.asset.resourceId == j.resource.id
                                                   then multiset([a] + rest)[j.asset] * multiset(resources)[j.resource] else 0)
    {
      JoinCountAt(a, rest, multiset(resources)[j.resource], j);
    }
  }

  /** One pair's count: the first asset's share plus the others' is the product for all assets. */
  lemma JoinCountAt(a: Asset, rest: seq<Asset>, m: nat, j: Joined)
    ensures (if j.asset == a then m else 0) + multiset(rest)[j.asset] * m == multiset([a] + rest)[j.asset] * m
  {
    var k := multiset(rest)[j.asset];
    assert multiset([a] + rest) == multiset{a} + multiset(rest);
    if j.asset == a {
      assert multiset([a] + rest)[j.asset] == k + 1;
      assert (k + 1) * m == m + k * m;
    } else {
      assert multiset([a] + rest)[j.asset] == k;
    }
  }

  /** `rows` are in ascending order of `key`. */
  ghost predicate Ascending<T>(rows: seq<T>, key: T -> int) {
    forall i, j :: 0 <= i < j < |rows| ==> key(rows[i]) <= key(rows[j])
  }

  /** Places `x` into the ascending `rows` before the first row with a larger key. */
  function Insert<T(==,!new)>(x: T, rows: seq<T>, key: T -> int): (r: seq<T>)
    requires Ascending(rows, key)
    ensures Ascending(r, key)
    ensures multiset(r) == multiset(rows) + multiset{x}
  {
    if rows == [] || key(x) <= key(rows[0]) then
      AscendingCons(x, rows, key);
      [x] + rows
    else
      var rest := Insert(x, rows[1..], key);
      InsertStep(x, rows, key, rest);
      [rows[0]] + rest
  }

  /** Putting the first row back in front of `x` inserted into the other rows keeps the
      order and gives the rows plus `x`. */
  lemma InsertStep<T>(x: T, rows: seq<T>, key: T -> int, rest: seq<T>)
    requires rows != [] && Ascending(rows, key) && key(rows[0]) < key(x)
    requires Ascending(rest, key) && multiset(rest) == multiset(rows[1..]) + multiset{x}
    ensures Ascending([rows[0]] + rest, key)
    ensures multiset([rows[0]] + rest) == multiset(rows) + multiset{x}
  {
    assert rows == [rows[0]] + rows[1..];
    forall y | y in rest ensures key(rows[0]) <= key(y) {
      assert y in multiset(rows[1..]) + multiset{x};
    }
    AscendingCons(rows[0], rest, key);
  }

  /** A row whose key is at most every key of an ascending sequence may be put in front of it. */
  lemma AscendingCons<T>(h: T, rows: seq<T>, key: T -> int)
    requires Ascending(rows, key)
    requires forall y :: y in rows ==> key(h) <= key(y)
    ensures Ascending([h] + rows, key)
  {
    forall i, j | 0 <= i < j < |rows| + 1 ensures key(([h] + rows)[i]) <= key(([h] + rows)[j]) {
      if i == 0 {
        assert ([h] + rows)[j] == rows[j - 1];
      }
    }
  }

  /** `ORDER BY key ASC`: a permutation of `rows` in ascending order of `key`
      (rows with equal keys keep their table order). */
  function SortBy<T(==,!new)>(rows: seq<T>, key: T -> int): (r: seq<T>)
    ensures Ascending(r, key)
    ensures multiset(r) == multiset(rows)
  {
    if rows == [] then []
    else
      assert rows == [rows[0]] + rows[1..];
      Insert(rows[0], SortBy(rows[1..], key), key)
  }

  /** `LIMIT n` on ascending rows keeps the rows with the smallest keys: none of the rows
      cut off has a smaller key than a row kept. */
  lemma {:induction false} LimitKeepsSmallest<T>(rows: seq<T>, key: T -> int, n: nat)
    requires Ascending(rows, key)
    ensures var k := if n < |rows| then n else |rows|;
      forall x, y :: x in rows[..k] && y in rows[k..] ==> key(x) <= key(y)
  {
    var k := if n < |rows| then n else |rows|;
    forall x, y | x in rows[..k] && y in rows[k..] ensures key(x) <= key(y) {
      var i :| 0 <= i < k && rows[i] == x;
      var j :| 0 <= j < |rows| - k && rows[k..][j] == y;
      assert rows[k + j] == y;
    }
  }

  /** Sequences that are permutations of each other have the same length. */
  lemma SameSize<T>(a: seq<T>, b: seq<T>)
    requires multiset(a) == multiset(b)
    ensures |a| == |b|
  {
    assert |multiset(a)| == |a| && |multiset(b)| == |b|;
  }

  /** Cutting a permutation of `rows` at `k`: the front holds rows of `rows`, and every row
      not in the front is in the back. */
  lemma SplitPermutation<T>(sorted: seq<T>, rows: seq<T>, k: nat)
    requires multiset(sorted) == multiset(rows) && k <= |sorted|
    ensures multiset(sorted[..k]) <= multiset(rows)
    ensures forall x :: x in sorted[..k] ==> x in rows
    ensures forall x :: x in rows && x !in sorted[..k] ==> x in sorted[k..]
    ensures forall x :: multiset(sorted[..k])[x] < multiset(rows)[x] ==> x in sorted[k..]
  {
    assert sorted == sorted[..k] + sorted[k..];
    assert multiset(sorted) == multiset(sorted[..k]) + multiset(sorted[k..]);
    forall x | x in sorted[..k] ensures x in rows {
      assert x in multiset(sorted);
    }
    forall x | x in rows && x !in sorted[..k] ensures x in sorted[k..] {
      assert x in multiset(sorted);
    }
  }

  /** `ORDER BY key ASC LIMIT n`: at most `n` of the rows, ascending; a row, or a copy of a
      repeated row, is left out only when `n` rows were kept, and then no kept row has a
      larger key than it. */
  function OrderLimit<T(==,!new)>(rows: seq<T>, key: T -> int, n: nat): (r: seq<T>)
    ensures |r| <= n
    ensures |r| == if |rows| < n then |rows| else n
    ensures Ascending(r, key)
    ensures multiset(r) <= multiset(rows)
    ensures forall x :: x in r ==> x in rows
    ensures forall x :: x in rows && x !in r ==> |r| == n && forall y :: y in r ==> key(y) <= key(x)
    ensures forall x :: multiset(r)[x] < multiset(rows)[x] ==> |r| == n && forall y :: y in r ==> key(y) <= key(x)
  {
    var sorted := SortBy(rows, key);
    SameSize(sorted, rows);
    var k := if |sorted| < n then |sorted| else n;
    LimitKeepsSmallest(sorted, key, n);
    SplitPermutation(sorted, rows, k);
    sorted[..k]
  }

  /** `WHERE p ORDER BY key ASC LIMIT n`: a copy of a row satisfying `p` is left out only
      when `n` rows were kept, and then no kept row has a larger key than it. */
  lemma OrderLimitWhere<T(!new)>(rows: seq<T>, p: T -> bool, key: T -> int, n: nat)
    ensures var r := OrderLimit(Where(rows, p), key, n);
      forall x :: p(x) && multiset(r)[x] < multiset(rows)[x] ==> |r| == n && forall y :: y in r ==> key(y) <= key(x)
  {
    forall x | p(x) ensures multiset(Where(rows, p))[x] == multiset(rows)[x] {
      WhereCount(rows, p, x);
    }
  }
}
